=== FILE: README.md ===
# Dice-mosaic purchase pipeline in Dafny

This project models the server side of a dice-mosaic shop. A customer designs
a mosaic on the generator page and pays through a hosted checkout. The
payment webhook forwards each completed checkout to the shop's own
print-order endpoint, which is meant to place the print order with the print
provider. As written, that endpoint rejects every forwarded body
(`Fulfilment.ForwardedOrderAlwaysRejected`), so no order reaches the
provider. The thank-you page's fallback is meant to look the session up and
record the purchase, storing a row with a six-character access code in the
`purchases` table. As written, it never records one (see "## Findings"). The
redemption endpoint trades an email and a code for the PDF link.

Each request handler is a pure function. Everything it cannot decide itself
is a parameter:
- the payment provider's answers and its signature check
- the print provider's reply
- the database outcome and the thank-you mail outcome
- the random id behind the access code

Each handler returns its response together with the outbound calls it made
and, where it writes, the table afterwards. So "no call", "exactly one call"
and "the row stays" are statements about the result.

Modules, one per file:

- `Common` (common.dfy): optional fields with JavaScript truthiness, responses, `fetch` outcomes.
- `JsText` (js_text.dfy): `trim`, `toLowerCase`, `toUpperCase`, `split` and `join` on one character.
- `Numerals` (numerals.dfy): `String(n)` on integers and `parseInt`.
- `JsValues` (js_value.dfy): JavaScript values, truthiness and property reads.
- `JsonText` (json_text.dfy): `JSON.stringify`.
- `JsonRead` (json_read.dfy): a strict JSON reader. It is a reference definition that gives "this text holds that value" a checkable meaning through the round trip.
- `Checkout` (checkout.dfy): the checkout-session handler.
- `Webhook` (webhook.dfy): the payment webhook.
- `PrintOrder` (print_order.dfy): the print-order handler.
- `Purchases` (purchases.dfy): the `purchases` rows, access codes and the lookup normalisation.
- `RecordLib` (record_purchase_lib.dfy): the library function `recordPurchase`.
- `RecordApi` (record_purchase_api.dfy): the recording endpoint.
- `SessionLookup` (session_lookup.dfy): the session-lookup fallback.
- `Redeem` (redeem.dfy): the redemption endpoint.
- `CreatePage` (create_page.dfy): the generator page's die clamp, aspect-ratio table and picker cards.
- `Fulfilment` (fulfilment.dfy): how the handlers compose.

## Model

| member | source | states |
|---|---|---|
| Common.OrEmpty | pages/api/create-checkout-session.ts:35-40 | `field \|\| ""`: a truthy string is kept, an absent or empty one becomes "" |
| Common.Lookup | pages/api/get-stripe-session.ts:18-25 | reading a metadata key gives a value exactly when the key is present, and then the stored value |
| JsValues.LastValue | pages/api/submit-gelato-order.ts:11 | a property read finds the last member with that key; no such member gives `undefined`, and any other result is the value of a member with that key |
| JsValues.Get | pages/api/submit-gelato-order.ts:11 | reading a property of a non-object is `undefined`; on an object, a key no member has gives `undefined`, and otherwise the value of the last member with that key |
| JsText.ToLower | pages/api/redeem-code.ts:20 | lower-casing keeps the length, maps every character on its own and leaves no upper-case letter |
| JsText.ToUpper | pages/api/redeem-code.ts:21 | upper-casing keeps the length, maps every character on its own and leaves no lower-case letter |
| JsText.JoinSplit | pages/api/submit-gelato-order.ts:32 | joining the pieces of a split with the same separator gives back the original text |
| JsText.SplitAtFirst | pages/api/submit-gelato-order.ts:31-32 | the first piece is the text before the first space; the other pieces rejoined are the text after it |
| JsText.Trim | pages/api/redeem-code.ts:20-21 | `trim` gives the text between a white-space prefix and a white-space suffix, with no white space left at either end |
| JsText.TrimIgnoresPadding | pages/api/redeem-code.ts:20-21 | white space added around a text does not change what `trim` returns |
| JsText.TrimIdempotent | pages/api/redeem-code.ts:20-21 | trimming twice is trimming once |
| JsText.TrimLower | pages/api/redeem-code.ts:20 | `trim` and lower-casing commute |
| JsText.TrimUpper | pages/api/redeem-code.ts:21 | `trim` and upper-casing commute |
| JsText.CaseMappingsAbsorb | pages/api/redeem-code.ts:20-21 | a case mapping after any case mapping gives the same as applying it alone |
| Numerals.ParseIntOfDecimal | pages/create.tsx:204 | `parseInt` of an integer's decimal text gives back the integer |
| JsonText.Stringify | pages/api/create-checkout-session.ts:44 | the JSON text of a value is never empty |
| JsonRead.RoundTrip | pages/api/create-checkout-session.ts:44 | reading back the JSON text of any value without `undefined` inside gives the value |
| Checkout.PriceFor | pages/api/create-checkout-session.ts:47-72 | a price exists exactly for the five product types, and every price is positive |
| Checkout.PriceTable | pages/api/create-checkout-session.ts:49-68 | pdf 1999, highres 1499, lowres 499, bundle 2995; a print costs 8999 exactly when the size is "large", else 5999, absent or empty size included |
| Checkout.BundleCheaperThanParts | pages/api/create-checkout-session.ts:49-65 | the bundle costs less than PDF plus high-res, and digital prices ignore the size |
| Checkout.StyleIdText | pages/api/create-checkout-session.ts:39 | the style entry is "" exactly when no style id was sent; otherwise `parseInt` of it gives the id |
| Checkout.FixedEntries | pages/api/create-checkout-session.ts:32-41 | the seven entries always written, each the field or "" |
| Checkout.Metadata | pages/api/create-checkout-session.ts:32-45 | keys are the seven fixed ones, plus `projectName` when sent and `grid` exactly when the grid is truthy; never `email`; fixed entries and project name carry the request's values |
| Checkout.MetadataGridReadsBack | pages/api/create-checkout-session.ts:43-45 | the `grid` entry is the grid's JSON: reading it back gives the grid sent |
| Checkout.ProjectLabel | pages/api/create-checkout-session.ts:84 | the description is "Project: " followed by the project name |
| Checkout.HandleCheckout | pages/api/create-checkout-session.ts:10-101 | 405 or 400 "Invalid product type" with no provider call; otherwise exactly one call: card payment, one usd line item at the table price, quantity passed through, customer email, the metadata above; then 200 with the URL or 500 with the provider's message |
| Webhook.ForwardedBody | pages/api/stripe-webhook.ts:48 | the forwarded object has exactly one member, `session` |
| Webhook.HandleWebhook | pages/api/stripe-webhook.ts:18-63 | 405 for non-POST; a failed signature gives 400 "Webhook Error: …" and no call; once verified always 200; exactly one forward, iff the event is a completed checkout; the forward's outcome only reaches the log |
| Webhook.AcknowledgementIgnoresReply | pages/api/stripe-webhook.ts:42-62 | the response and the calls do not depend on how the forwarded call ends |
| Webhook.ForwardNeedsVerifiedCompletion | pages/api/stripe-webhook.ts:28-43 | a forward happens only for a verified `checkout.session.completed` event |
| PrintOrder.FirstName | pages/api/submit-gelato-order.ts:31 | the text before the first space, or "Customer" when that is empty |
| PrintOrder.LastName | pages/api/submit-gelato-order.ts:32 | everything after the first space, or "-" when that is empty |
| PrintOrder.NameSplitRejoins | pages/api/submit-gelato-order.ts:31-32 | when no placeholder is used, first name, a space and last name rebuild the name |
| PrintOrder.FirstNameIsOneWord | pages/api/submit-gelato-order.ts:31 | the first name is never empty and never holds a space |
| PrintOrder.BuildOrder | pages/api/submit-gelato-order.ts:24-41 | one item with the product uid and the one image URL; address fields and email copied as sent |
| PrintOrder.ReplyResponse | pages/api/submit-gelato-order.ts:54-66 | 200 with the provider's id exactly on an ok reply with a body; a non-ok reply gives 500 with the details; anything else 500 |
| PrintOrder.HandleOrder | pages/api/submit-gelato-order.ts:5-67 | 405; the required-field check (400) before the address check (400); only `line1` of the address is checked; exactly one provider call iff every check passes; 200 only then |
| Purchases.MakeCode | lib/recordPurchase.ts:21 | the code has six characters, none lower-case, each from the upper-cased id alphabet, and agrees with the id up to case |
| Purchases.NormalizeEmail | pages/api/redeem-code.ts:20 | the lookup email is the input with a white-space prefix and suffix cut off, lower-cased; it has no upper-case letter and no white space at either end |
| Purchases.NormalizeCode | pages/api/redeem-code.ts:21 | the lookup code is the input with a white-space prefix and suffix cut off, upper-cased; it has no lower-case letter and no white space at either end |
| Purchases.NormalizeIdempotent | pages/api/redeem-code.ts:20-21 | normalising twice is normalising once |
| Purchases.NormalizeEmailIgnores | pages/api/redeem-code.ts:20 | emails equal up to padding and letter case normalise alike |
| Purchases.NormalizeCodeIgnores | pages/api/redeem-code.ts:21 | codes equal up to padding and letter case normalise alike |
| Purchases.NormalizeEmailFixes | pages/api/redeem-code.ts:20 | an email with no upper-case letter and no white space at either end is its own lookup key, so two such emails that differ are looked up differently |
| Purchases.NormalizeCodeFixes | pages/api/redeem-code.ts:21 | a code with no lower-case letter and no white space at either end is its own lookup key |
| Purchases.CodeIsNormal | pages/api/redeem-code.ts:21 | a generated code is already in the form the lookup uses |
| RecordLib.StripeDataText | lib/recordPurchase.ts:30 | an absent or null payload is stored as "{}" |
| RecordLib.StripeDataReadsBack | lib/recordPurchase.ts:30 | the stored text reads back as the payload, or as the empty object when there was none |
| RecordLib.RecordPurchase | lib/recordPurchase.ts:5-51 | a missing field throws before any insert or mail; otherwise one row with the code, fields and payload JSON; an insert error throws "Database error" without mail; otherwise the row stays, one mail is sent, and the code returned is the row's, with a warning exactly when the mail failed |
| RecordLib.MailFailureKeepsRow | lib/recordPurchase.ts:39-48 | a failed mail leaves the same table and the same insert as a sent one |
| RecordApi.InsertThenMail | pages/api/record-purchase.ts:23-50 | an insert error gives 500 "Database error" and no mail; otherwise the row is appended, exactly one mail goes out to the given address with the row's code, PDF, project name and payload, 200 with the code, plus the warning when the mail failed |
| RecordApi.HandleRecord | pages/api/record-purchase.ts:7-51 | 405; 400 with no insert when a field is missing; otherwise one row with the email exactly as received and the payload as sent; 200 exactly when the insert succeeded, with the row's six-character code; after a successful insert, one thank-you mail to the email as received |
| RecordApi.HandleRecordCorrected | pages/api/record-purchase.ts:23-39 | the same, except the row's email is stored trimmed and lower-cased; the thank-you mail still goes to the email as received |
| RecordApi.BodyJson | pages/api/record-purchase.ts:44-50 | the JSON body's `code` is the code on success and `undefined` on an error |
| Redeem.Matching | pages/api/redeem-code.ts:17-22 | the rows kept are exactly the rows matching both columns |
| Redeem.HandleRedeem | pages/api/redeem-code.ts:5-30 | 405; 400 with no lookup when a field is missing; one lookup on the normalised pair; 200 with the PDF iff exactly one row matches and the query succeeds, else 404 "Not found"; a 200 always names a matching row's PDF |
| Redeem.RedeemIgnoresPaddingAndCase | pages/api/redeem-code.ts:20-21 | requests that differ only in padding and letter case get the same outcome |
| Redeem.SameKeySameAnswer | pages/api/redeem-code.ts:17-29 | two requests whose emails and codes normalise alike get the same outcome |
| Redeem.MissesAreIndistinguishable | pages/api/redeem-code.ts:24-27 | a wrong email, a wrong code, a duplicate and a failed query all get the same response |
| SessionLookup.MetadataOf | pages/api/get-stripe-session.ts:18 | missing metadata reads as the empty map; present metadata is returned as it is |
| SessionLookup.RecordRequestFor | pages/api/get-stripe-session.ts:19-39 | the recording body takes email, PDF and project from the metadata and the whole session as payload |
| SessionLookup.RecordRequestCorrected | pages/api/get-stripe-session.ts:30-39 | the same, with the email taken from the session's customer email |
| SessionLookup.ReplyResponse | pages/api/get-stripe-session.ts:41-57 | 200 with metadata, PDF URL and the returned code exactly on an ok reply with a body; a non-ok reply gives 500 "Failed to save purchase info"; anything else 500 |
| SessionLookup.LookupWith | pages/api/get-stripe-session.ts:8-58 | 400 with no retrieval for a missing, empty or repeated session id; a failed retrieval gives 500 and no recording; otherwise exactly one recording call, with no duplicate check; a missing PDF URL only sets the warning |
| SessionLookup.HandleLookup | pages/api/get-stripe-session.ts:8-58 | the handler as written: one recording request per retrieved session, built from the metadata; 200 only after an ok recording reply |
| SessionLookup.HandleLookupCorrected | pages/api/get-stripe-session.ts:19 | the handler with the recording email taken from the customer email |
| CreatePage.ClampDiceValue | pages/create.tsx:203-207 | the result is in 0..6; unparsable input gives 0; parsed values are clamped to 0..6 |
| CreatePage.ClampNumber | pages/create.tsx:203-207 | an integer cell is clamped as the integer itself: 0..6 kept, above 6 gives 6, below 0 gives 0 |
| CreatePage.ClampIdempotent | pages/create.tsx:203-207 | clamping a clamped value changes nothing |
| CreatePage.HandleAspectRatioChange | pages/create.tsx:94-112 | the option is always recorded; with no cropper the grid is unchanged and nothing is called; otherwise the grid comes from the table, in the proportions of the ratio handed over |
| CreatePage.GridTable | pages/create.tsx:99-108 | portrait 80×120, landscape 120×80, any other option 100×100 |
| CreatePage.PortraitLandscapeTranspose | pages/create.tsx:102-108 | portrait and landscape are transposes in grid and ratio |
| CreatePage.PickerCardsAgree | pages/create.tsx:473-485 | each picker card shows the grid and ratio its click sets, and the card keys are distinct |
| Fulfilment.ReplyOf | pages/api/get-stripe-session.ts:41 | what the lookup reads back from the recording endpoint: its status and JSON body |
| Fulfilment.ForwardedOrderAlwaysRejected | pages/api/stripe-webhook.ts:43-49 | the webhook's forwarded body, read back from its JSON, always gets 400 "Missing required fields" from the print-order handler, and no print order is placed |
| Fulfilment.LookupAfterCheckoutNeverRecords | pages/api/get-stripe-session.ts:19 | for every session the checkout handler creates, the recording request has no email, recording answers 400 and inserts nothing, and the lookup answers 500 |
| Fulfilment.CorrectedLookupRecords | pages/api/get-stripe-session.ts:19-52 | with the corrections, a checkout with email, PDF and project is recorded once and the lookup answers 200 with the new row's code |
| Fulfilment.RepeatedLookupRecordsTwice | pages/api/get-stripe-session.ts:30-39 | stated for the lookup with the customer-email correction (`SessionLookup.HandleLookupCorrected`), since the lookup as written records nothing: looking the same session up twice inserts two rows with the same email and PDF for one purchase |
| Fulfilment.MatchingAppend | pages/api/redeem-code.ts:17-22 | appending a row adds it to the matches exactly when it matches |
| Fulfilment.UnnormalisedRowNeverMatched | pages/api/redeem-code.ts:20 | a row whose email is not trimmed and lower-cased matches no redemption lookup |
| Fulfilment.MixedCaseEmailUnredeemable | pages/api/record-purchase.ts:23-31 | recording such an email changes no redemption answer at all |
| Fulfilment.UnnormalisedRowRefused | pages/api/redeem-code.ts:17-27 | a table whose one row holds an email not in normal form answers 404 to a request sending exactly that email, whatever the code |
| Fulfilment.UnnormalisedBuyerTurnedAway | pages/api/record-purchase.ts:23-31 | any buyer whose email is not in normal form is recorded (200), then turned away with 404 when sending that email and the returned code |
| Fulfilment.BuyerWithCapitalsIsTurnedAway | pages/api/record-purchase.ts:26 | "Buyer@Example.com" is recorded, then redeeming with that email and the returned code gives 404 |
| Fulfilment.TypedEmail | pages/api/redeem-code.ts:20 | a padded, re-cased email is accepted and normalises like the original |
| Fulfilment.TypedCode | pages/api/redeem-code.ts:21 | a padded, re-cased code in normal form normalises to itself |
| Fulfilment.RedeemsOnlyMatch | pages/api/redeem-code.ts:17-29 | a lookup matching only the appended row returns that row's PDF |
| Fulfilment.CorrectedRecordAppends | pages/api/record-purchase.ts:23-31 | corrected recording of a complete request succeeds and appends the normalised row |
| Fulfilment.TypedRedeems | pages/api/redeem-code.ts:17-29 | the buyer's email and code, padded and re-cased, redeem a row stored in normal form |
| Fulfilment.RecordedPurchaseRedeemable | pages/api/redeem-code.ts:17-29 | after corrected recording, a request that normalises to the stored email and code gets 200 with the PDF, provided no earlier row has that pair |

## Left out

- Network, deployment settings and logging:
  - Provider, database and mail calls are parameters holding their outcome.
  - Site URLs and API keys are parameters.
  - Console output is modelled only where it is the sole trace of a branch: the webhook's forward log and the lookup's missing-PDF warning.
- Payment signature verification is an oracle function of (raw body, signature, secret). The HMAC inside the library is not part of this model, and neither is decoding the raw body or a repeated signature header.
- `nanoid(6)` is a parameter of type `NanoId`: any six characters of its alphabet. Code collisions and unique constraints on the table are not modelled, and the source has no retry.
- The thank-you mail is an opaque call that succeeds or fails. utils/sendThankYouEmail.ts is not part of this model. Its own signature, and the default import used by the recording endpoint, are taken to work as the callers intend.
- `JsonText.Stringify` writes an object's members in the order they are listed and keeps repeated keys. `JSON.stringify` writes integer-like keys ("0", "12") first, in ascending order, and a JavaScript object never holds a key twice. The grid is an array of arrays and the shop's own objects have no integer-like keys, so only a provider payload with such keys would be stored in a different order.
- `Checkout.ProjectLabel`: a `projectName` sent as JSON `null` prints as "Project: undefined" rather than "Project: null". `Common.Option` does not tell `null` apart from an absent field.
- `Checkout.Metadata`: a `projectName` that is `undefined` is left out of the metadata rather than stored. The provider client drops undefined-valued parameters when it encodes the request, so the key is absent there too.
- `Checkout.HandleCheckout`, `RecordApi.HandleRecord` and `Redeem.HandleRedeem` do not model a request with no body at all. Destructuring `undefined` throws there, giving a 500. String fields are modelled as optional strings and the checkout's `styleId` as an optional integer; a value of any other type in those fields is not modelled.
- `JsText.ToLower`, `JsText.ToUpper`: only ASCII letters change case. Full Unicode case mapping is not modelled.
- `CreatePage.ClampDiceValue`: a number cell must be an integer below 10^21 in magnitude. Fractional numbers and the exponent notation `String` uses beyond that are not modelled.
- JavaScript numbers are integers throughout (`JsValues.Num`). Floating point is not modelled.
- The crop ratios 2/3 and 3/2 are integer pairs (`CreatePage.Ratio`), not floating-point numbers.
- `PrintOrder.HandleOrder`: the message of a thrown `TypeError` is the constant `TypeErrorText`, because its wording belongs to the engine.
- `Fulfilment.ReplyOf` assumes the recording endpoint's JSON body reaches the lookup unchanged.
- `Fulfilment.SessionFrom` assumes the payment provider returns a session holding exactly the metadata and `customer_email` it was created with.
- `Fulfilment.RecordedPurchaseRedeemable` is stated for requests that normalise to the stored key. Which requests those are (the buyer's own email and code, padded and re-cased) is proved separately by `Fulfilment.TypedEmail`, `Fulfilment.TypedCode` and `Fulfilment.TypedRedeems`.
- The print-order handler has no table mapping product variants to print SKUs. So there is no corrected webhook-to-order pipeline, only the lemma that the forward as written is always rejected.
- pages/api/generate-pdf.ts, pages/api/generate-highres.ts, the presentation pages and components, and the browser-side storage and fetch code of pages/create.tsx are not part of this model.

## Findings

| source | as written | input that shows it | evidently intended | confidence | as-written member | corrected member |
|---|---|---|---|---|---|---|
| pages/api/record-purchase.ts:26 | the row stores the email exactly as received, but redemption looks it up trimmed and lower-cased (the same holds in lib/recordPurchase.ts:27) | record "Buyer@Example.com", then redeem with "Buyer@Example.com" and the returned code: 404 "Not found" | store the email in the form redemption looks it up in; `Fulfilment.RecordedPurchaseRedeemable` proves the corrected recording is redeemable | not executed; high | Fulfilment.BuyerWithCapitalsIsTurnedAway | RecordApi.HandleRecordCorrected |
| pages/api/get-stripe-session.ts:19 | the lookup reads the buyer's email from `metadata.email`, which the checkout handler never writes; it passes the email as `customer_email` instead | any session created by the checkout handler: recording answers 400 "Missing required fields" and the lookup 500 "Failed to save purchase info" | take the email from the session's customer email; `Fulfilment.CorrectedLookupRecords` proves the corrected lookup records the purchase and returns its code | not executed; high | Fulfilment.LookupAfterCheckoutNeverRecords | SessionLookup.HandleLookupCorrected |

=== FILE: checkout.dfy ===
/** `POST /api/create-checkout-session`: prices the requested product from a
    fixed table, flattens the order details into the payment session's
    string metadata, and asks the payment provider for one checkout session. */
module Checkout {
  import opened Common
  import opened JsValues
  import opened Numerals
  import opened JsonText
  import opened JsonRead

  /** The request body fields the handler destructures. `quantity` and
      `grid` are passed on as whatever JSON value the client sent. */
  datatype CheckoutRequest = CheckoutRequest(
    httpMethod: string,
    productType: Option<string>,
    size: Option<string>,
    quantity: JsValue,
    email: Option<string>,
    projectName: Option<string>,
    pdfUrl: Option<string>,
    lowResImageUrl: Option<string>,
    highResImageUrl: Option<string>,
    styleId: Option<int>,
    grid: JsValue,
    printAspectRatio: Option<string>)

  /** What the price switch settles on: the unit amount in cents and the
      product name shown on the payment page. */
  datatype Product = Product(unitAmount: nat, name: string)

  const ProductTypes: set<string> := {"pdf", "highres", "lowres", "bundle", "print"}

  /** The price switch; `None` is the `default` branch. */
  function PriceFor(productType: Option<string>, size: Option<string>): (r: Option<Product>)
    ensures r.Some? <==> productType.Some? && productType.value in ProductTypes
    ensures r.Some? ==> r.value.unitAmount > 0
  {
    if productType == Some("pdf") then Some(Product(1999, "Dice Map PDF"))
    else if productType == Some("highres") then Some(Product(1499, "High-Resolution Image"))
    else if productType == Some("lowres") then Some(Product(499, "Basic Resolution Image"))
    else if productType == Some("bundle") then Some(Product(2995, "Digital Bundle (PDF + High-Res)"))
    else if productType == Some("print") then
      Some(Product(if size == Some("large") then 8999 else 5999, "Physical Print"))
    else None
  }

  /** The keys every session's metadata carries, whatever was supplied. */
  const FixedKeys: set<string> :=
    {"productType", "size", "pdfUrl", "lowResImageUrl", "highResImageUrl", "styleId", "printAspectRatio"}

  /** `styleId?.toString() || ""`. */
  function StyleIdText(styleId: Option<int>): (r: string)
    ensures styleId.None? <==> r == ""
    ensures styleId.Some? ==> ParseInt(r) == styleId
  {
    if styleId.Some? then
      ParseIntOfDecimal(styleId.value);
      IntToDecimal(styleId.value)
    else ""
  }

  /** The seven entries written whatever the request holds. */
  function FixedEntries(req: CheckoutRequest, productType: string): (r: map<string, string>)
    ensures r.Keys == FixedKeys
    ensures r["productType"] == productType
    ensures r["size"] == OrEmpty(req.size) && r["pdfUrl"] == OrEmpty(req.pdfUrl)
    ensures r["lowResImageUrl"] == OrEmpty(req.lowResImageUrl)
    ensures r["highResImageUrl"] == OrEmpty(req.highResImageUrl)
    ensures r["printAspectRatio"] == OrEmpty(req.printAspectRatio)
    ensures r["styleId"] == StyleIdText(req.styleId)
  {
    var size, pdfUrl, styleId := OrEmpty(req.size), OrEmpty(req.pdfUrl), StyleIdText(req.styleId);
    var lowRes, highRes, ratio := OrEmpty(req.lowResImageUrl), OrEmpty(req.highResImageUrl), OrEmpty(req.printAspectRatio);
    map["productType" := productType, "size" := size, "pdfUrl" := pdfUrl, "lowResImageUrl" := lowRes,
        "highResImageUrl" := highRes, "styleId" := styleId, "printAspectRatio" := ratio]
  }

  lemma OptionalKeysNotFixed()
    ensures "projectName" !in FixedKeys && "grid" !in FixedKeys && "email" !in FixedKeys
    ensures "projectName" != "grid"
  {
  }

  /** `m` with `key` set to `value` when `present`, unchanged otherwise. */
  function SetIf(m: map<string, string>, present: bool, key: string, value: string): (r: map<string, string>)
    ensures r.Keys == if present then m.Keys + {key} else m.Keys
    ensures forall k :: k in m && k != key ==> r[k] == m[k]
    ensures present ==> r[key] == value
  {
    if present then m[key := value] else m
  }

  /** The metadata object, as the provider stores it: a `projectName` that
      is `undefined` is dropped when the request is encoded, every other
      optional field falls back to "", and `grid` is added, as JSON text,
      only when it is truthy. */
  function Metadata(req: CheckoutRequest, productType: string): (r: map<string, string>)
    ensures r.Keys == FixedKeys
                      + (if req.projectName.Some? then {"projectName"} else {})
                      + (if Truthy(req.grid) then {"grid"} else {})
    ensures "email" !in r
    ensures forall k :: k in FixedKeys ==> r[k] == FixedEntries(req, productType)[k]
    ensures req.projectName.Some? ==> r["projectName"] == req.projectName.value
    ensures "grid" in r ==> |r["grid"]| > 0
  {
    OptionalKeysNotFixed();
    var named := SetIf(FixedEntries(req, productType), req.projectName.Some?, "projectName",
                       if req.projectName.Some? then req.projectName.value else "");
    SetIf(named, Truthy(req.grid), "grid", if Truthy(req.grid) then Stringify(req.grid) else "")
  }

  /** The `grid` entry holds the grid's JSON: reading it back gives the grid
      the client sent. */
  lemma MetadataGridReadsBack(req: CheckoutRequest, productType: string)
    requires Truthy(req.grid) && Plain(req.grid)
    ensures "grid" in Metadata(req, productType)
    ensures Read(Metadata(req, productType)["grid"]) == Some(req.grid)
  {
    RoundTrip(req.grid);
  }

  /** One entry of `line_items`. */
  datatype LineItem = LineItem(
    currency: string,
    unitAmount: nat,
    productName: string,
    description: string,
    quantity: JsValue)

  /** The arguments of the provider's session-creation call. */
  datatype SessionParams = SessionParams(
    paymentMethodTypes: seq<string>,
    mode: string,
    lineItems: seq<LineItem>,
    customerEmail: Option<string>,
    metadata: map<string, string>,
    successUrl: string,
    cancelUrl: string)

  /** The template literal `Project: ${projectName}`; an absent name prints
      as "undefined". */
  function ProjectLabel(projectName: Option<string>): (r: string)
    ensures |r| >= 9 && r[..9] == "Project: "
    ensures projectName.Some? ==> r[9..] == projectName.value
  {
    "Project: " + (if projectName.Some? then projectName.value else "undefined")
  }

  /** The outcome of the provider call: a session with its payment page URL,
      or a thrown error with its message. */
  datatype CreateReply = Created(url: string) | CreateFailed(message: string)

  datatype CheckoutBody = CheckoutError(error: string) | CheckoutUrl(url: string)

  /** The response and the session-creation calls the handler made. */
  datatype CheckoutOutcome = CheckoutOutcome(response: Response<CheckoutBody>, calls: seq<SessionParams>)

  /** The handler. `siteUrl` is `NEXT_PUBLIC_SITE_URL`; `created` is what the
      provider answers if it is called. */
  function HandleCheckout(req: CheckoutRequest, siteUrl: string, created: CreateReply): (r: CheckoutOutcome)
    ensures req.httpMethod != Post ==> r == CheckoutOutcome(Response(405, CheckoutError("Method Not Allowed")), [])
    ensures req.httpMethod == Post && PriceFor(req.productType, req.size).None? ==>
              r == CheckoutOutcome(Response(400, CheckoutError("Invalid product type")), [])
    ensures |r.calls| <= 1
    ensures |r.calls| == 1 <==> req.httpMethod == Post && PriceFor(req.productType, req.size).Some?
    ensures |r.calls| == 1 ==>
              var p := r.calls[0];
              && p.paymentMethodTypes == ["card"] && p.mode == "payment"
              && |p.lineItems| == 1
              && p.lineItems[0].currency == "usd"
              && p.lineItems[0].unitAmount == PriceFor(req.productType, req.size).value.unitAmount
              && p.lineItems[0].quantity == req.quantity
              && p.customerEmail == req.email
              && p.metadata == Metadata(req, req.productType.value)
    ensures |r.calls| == 1 && created.Created? ==> r.response == Response(200, CheckoutUrl(created.url))
    ensures |r.calls| == 1 && created.CreateFailed? ==> r.response == Response(500, CheckoutError(created.message))
  {
    if req.httpMethod != Post then
      CheckoutOutcome(Response(405, CheckoutError("Method Not Allowed")), [])
    else
      match PriceFor(req.productType, req.size)
      case None => CheckoutOutcome(Response(400, CheckoutError("Invalid product type")), [])
      case Some(product) =>
        var item := LineItem("usd", product.unitAmount, product.name, ProjectLabel(req.projectName), req.quantity);
        var params := SessionParams(
          ["card"], "payment", [item], req.email,
          Metadata(req, req.productType.value),
          siteUrl + "/create?success=true", siteUrl + "/create?canceled=true");
        var response := match created
          case Created(url) => Response(200, CheckoutUrl(url))
          case CreateFailed(message) => Response(500, CheckoutError(message));
        CheckoutOutcome(response, [params])
  }

  /** The price table: each digital product has one fixed price, and a print
      costs 8999 exactly when the size is "large" — any other size, absent
      or empty included, costs 5999. */
  lemma PriceTable(size: Option<string>)
    ensures PriceFor(Some("pdf"), size).value.unitAmount == 1999
    ensures PriceFor(Some("highres"), size).value.unitAmount == 1499
    ensures PriceFor(Some("lowres"), size).value.unitAmount == 499
    ensures PriceFor(Some("bundle"), size).value.unitAmount == 2995
    ensures PriceFor(Some("print"), size).value.unitAmount == 8999 <==> size == Some("large")
    ensures size != Some("large") ==> PriceFor(Some("print"), size).value.unitAmount == 5999
  {
  }

  /** The bundle costs less than its two parts bought separately, and a
      digital price never depends on the size field. */
  lemma BundleCheaperThanParts(size1: Option<string>, size2: Option<string>)
    ensures PriceFor(Some("bundle"), size1).value.unitAmount
            < PriceFor(Some("pdf"), size1).value.unitAmount + PriceFor(Some("highres"), size1).value.unitAmount
    ensures forall t :: t in ProductTypes - {"print"} ==> PriceFor(Some(t), size1) == PriceFor(Some(t), size2)
  {
  }
}

=== FILE: common.dfy ===
/** Values shared by every request handler: optional request fields with
    JavaScript truthiness, HTTP responses, and the outcome of an outbound
    `fetch` whose result a handler inspects. */
module Common {

  /** An optional value; `None` stands for a field that is absent, `undefined`
      or `null` in the request. */
  datatype Option<+T> = None | Some(value: T)

  /** JavaScript truthiness of an optional string field: `undefined` and `""`
      are falsy, every other string is truthy. */
  predicate Filled(o: Option<string>) {
    o.Some? && o.value != ""
  }

  /** `field || ""` on an optional string field. */
  function OrEmpty(o: Option<string>): (r: string)
    ensures Filled(o) ==> r == o.value
    ensures !Filled(o) ==> r == ""
  {
    if o.Some? then o.value else ""
  }

  /** Property read `map[key]` on a string-valued map: `undefined` when the key is missing. */
  function Lookup(m: map<string, string>, key: string): (r: Option<string>)
    ensures r.Some? <==> key in m
    ensures r.Some? ==> r.value == m[key]
  {
    if key in m then Some(m[key]) else None
  }

  /** The HTTP method every handler in the pipeline accepts. */
  const Post: string := "POST"

  /** A response: a status code and a handler-specific body. */
  datatype Response<B> = Response(status: int, body: B)

  /** `res.ok` of the Fetch API: a status in the 200..299 range. */
  predicate IsOk(status: int) {
    200 <= status <= 299
  }

  /** The outcome of an outbound `fetch` followed by reading its body: either
      a reply with a status and a body, or a thrown error (network failure or
      an unreadable body). */
  datatype FetchReply<B> = Replied(status: int, body: B) | Threw(message: string)
}

=== FILE: create_page.dfy ===
/** The pure pieces of the generator page (pages/create.tsx): the clamp that
    turns a grid cell into a die face, the aspect-ratio handler's grid table
    and the picker cards that offer the three ratios. */
module CreatePage {
  import opened Common
  import opened Numerals

  /** A grid cell as the page may hold it: an integer-valued number below
      10^21 in magnitude (so that `String(n)` is plain decimal), or text. */
  datatype DiceInput = Number(n: int) | Text(s: string)

  predicate WellFormedInput(v: DiceInput) {
    v.Number? ==> -1_000_000_000_000_000_000_000 < v.n < 1_000_000_000_000_000_000_000
  }

  /** `parseInt(val as string)`: a number is first converted to its decimal text. */
  function ParseCell(v: DiceInput): Option<int> {
    match v
    case Number(n) => ParseInt(IntToDecimal(n))
    case Text(s) => ParseInt(s)
  }

  /** `clampDiceValue`: 0 for text that does not start with an integer,
      otherwise the integer clamped into 0..6. */
  function ClampDiceValue(v: DiceInput): (r: int)
    requires WellFormedInput(v)
    ensures 0 <= r <= 6
    ensures ParseCell(v).None? ==> r == 0
    ensures ParseCell(v).Some? && 0 <= ParseCell(v).value <= 6 ==> r == ParseCell(v).value
    ensures ParseCell(v).Some? && ParseCell(v).value > 6 ==> r == 6
    ensures ParseCell(v).Some? && ParseCell(v).value < 0 ==> r == 0
  {
    match ParseCell(v)
    case None => 0
    case Some(num) => if num > 6 then 6 else if num < 0 then 0 else num
  }

  /** A number goes through its decimal text unchanged, so an integer cell
      is clamped as the integer itself: face values 0..6 stay, larger ones
      become 6 and negative ones 0. */
  lemma ClampNumber(n: int)
    requires WellFormedInput(Number(n))
    ensures 0 <= n <= 6 ==> ClampDiceValue(Number(n)) == n
    ensures n > 6 ==> ClampDiceValue(Number(n)) == 6
    ensures n < 0 ==> ClampDiceValue(Number(n)) == 0
  {
    ParseIntOfDecimal(n);
  }

  /** Clamping is idempotent: a clamped value, fed back as a number, stays. */
  lemma ClampIdempotent(v: DiceInput)
    requires WellFormedInput(v)
    ensures ClampDiceValue(Number(ClampDiceValue(v))) == ClampDiceValue(v)
  {
    ClampNumber(ClampDiceValue(v));
  }

  /** Grid width and height, in dice. */
  datatype Grid = Grid(width: int, height: int)

  /** A crop ratio as the integer pair width : height. */
  datatype Ratio = Ratio(width: int, height: int)

  /** The state the handler touches: the chosen option and the grid size. */
  datatype CropState = CropState(aspectRatio: string, gridSize: Grid)

  /** The grid the handler sets for an option: portrait and landscape have
      their own, every other key gets the square one. */
  function GridFor(option: string): Grid {
    if option == "portrait" then Grid(80, 120)
    else if option == "landscape" then Grid(120, 80)
    else Grid(100, 100)
  }

  /** The crop ratio the handler sets for an option (2/3, 3/2 or 1). */
  function RatioFor(option: string): Ratio {
    if option == "portrait" then Ratio(2, 3)
    else if option == "landscape" then Ratio(3, 2)
    else Ratio(1, 1)
  }

  /** `handleAspectRatioChange`: the option is always recorded; without a
      cropper nothing else happens, with one the crop ratio and the grid are
      set from the option. The second result is the ratio handed to the
      cropper, if it was called. */
  function HandleAspectRatioChange(state: CropState, option: string, hasCropper: bool): (r: (CropState, Option<Ratio>))
    ensures r.0.aspectRatio == option
    ensures !hasCropper ==> r.0.gridSize == state.gridSize && r.1 == None
    ensures hasCropper ==> r.1.Some? && r.0.gridSize == GridFor(option)
    ensures hasCropper ==> r.0.gridSize.width * r.1.value.height == r.0.gridSize.height * r.1.value.width
  {
    if !hasCropper then (state.(aspectRatio := option), None)
    else (CropState(option, GridFor(option)), Some(RatioFor(option)))
  }

  /** The grid table: portrait 80 x 120, landscape 120 x 80, any other
      option 100 x 100. */
  lemma GridTable(option: string)
    ensures option == "portrait" ==> GridFor(option) == Grid(80, 120)
    ensures option == "landscape" ==> GridFor(option) == Grid(120, 80)
    ensures option != "portrait" && option != "landscape" ==> GridFor(option) == Grid(100, 100)
  {
  }

  /** Portrait and landscape are transposes of each other, in grid and in
      ratio. */
  lemma PortraitLandscapeTranspose()
    ensures GridFor("portrait") == Grid(GridFor("landscape").height, GridFor("landscape").width)
    ensures RatioFor("portrait") == Ratio(RatioFor("landscape").height, RatioFor("landscape").width)
  {
  }

  /** One picker card: its caption, ratio, grid and the option key it selects. */
  datatype Card = Card(caption: string, ratio: Ratio, grid: Grid, key: string)

  /** The three cards, in display order. */
  const PickerCards: seq<Card> := [
    Card("Portrait", Ratio(2, 3), Grid(80, 120), "portrait"),
    Card("Square", Ratio(1, 1), Grid(100, 100), "square"),
    Card("Landscape", Ratio(3, 2), Grid(120, 80), "landscape")
  ]

  /** Each card shows the grid and ratio its click sets, and the cards'
      keys are distinct. */
  lemma PickerCardsAgree(state: CropState)
    ensures forall i :: 0 <= i < |PickerCards| ==>
              var after := HandleAspectRatioChange(state, PickerCards[i].key, true);
              after.0.gridSize == PickerCards[i].grid && after.1 == Some(PickerCards[i].ratio)
    ensures forall i, j :: 0 <= i < j < |PickerCards| ==> PickerCards[i].key != PickerCards[j].key
  {
  }
}

=== FILE: fulfilment.dfy ===
/** How the handlers fit together after a payment: the webhook's forward to
    the print-order endpoint, the thank-you page's session lookup feeding
    purchase recording, and recording feeding redemption. */
module Fulfilment {
  import opened Common
  import opened JsValues
  import opened JsText
  import opened JsonText
  import opened JsonRead
  import opened Purchases
  import opened Checkout
  import opened Webhook
  import opened PrintOrder
  import opened RecordApi
  import opened SessionLookup
  import opened Redeem

  /** What the lookup's `fetch` of the recording endpoint sees: the status
      and the JSON body of the endpoint's response. */
  function ReplyOf(o: RecordOutcome): (r: FetchReply<JsValue>)
    ensures r.Replied? && r.status == o.response.status && r.body.Obj?
  {
    Replied(o.response.status, BodyJson(o.response.body))
  }

  /** The session the provider hands back for a session created with
      `params`: it carries the metadata and the customer email given at
      creation. */
  predicate SessionFrom(session: CheckoutSession, params: SessionParams) {
    session.metadata == Some(params.metadata) && session.customerEmail == params.customerEmail
  }

  // ---------------------------------------------------------------------
  // Webhook → print order

  /** The webhook's forward can never place a print order: the body it
      sends, read back from its JSON, has no `name` (nor any field but
      `session`), so the print-order endpoint answers 400 "Missing required
      fields" and calls no provider. */
  lemma ForwardedOrderAlwaysRejected(
    req: WebhookRequest,
    env: WebhookEnv,
    verify: (string, Option<string>, string) -> Verification,
    reply: FetchReply<string>,
    apiKey: string,
    orderReply: FetchReply<JsValue>)
    requires HandleWebhook(req, env, verify, reply).calls != []
    requires Plain(verify(req.rawBody, req.signature, env.webhookSecret).event.dataObject)
    ensures var call := HandleWebhook(req, env, verify, reply).calls[0];
            && Read(call.body).Some?
            && HandleOrder(OrderRequest(call.httpMethod, Read(call.body).value), apiKey, orderReply)
               == OrderOutcome(Response(400, OrderError("Missing required fields")), [])
  {
    var session := verify(req.rawBody, req.signature, env.webhookSecret).event.dataObject;
    var body := ForwardedBody(session);
    assert Plain(body) by {
      assert body.members[0].value == session;
    }
    RoundTrip(body);
    assert body.members[0].key != "name" by {
      assert |body.members[0].key| != |"name"|;
    }
    assert Get(body, "name") == Undefined;
  }

  // ---------------------------------------------------------------------
  // Checkout → session lookup → recording

  /** As written, the lookup can never record a purchase made through the
      checkout handler: that handler keeps the buyer's email out of the
      metadata, the lookup reads the email from the metadata, so the
      recording endpoint answers 400 without inserting, and the thank-you
      page gets 500 "Failed to save purchase info". */
  lemma LookupAfterCheckoutNeverRecords(
    checkout: CheckoutRequest, siteUrl: string, created: CreateReply,
    session: CheckoutSession, sessionId: string, baseUrl: string,
    table: seq<Row>, id: NanoId, db: DbResult, mail: MailResult, anyReply: FetchReply<JsValue>)
    requires HandleCheckout(checkout, siteUrl, created).calls != []
    requires SessionFrom(session, HandleCheckout(checkout, siteUrl, created).calls[0])
    requires sessionId != ""
    ensures var call := HandleLookup(Some(Single(sessionId)), baseUrl, Retrieved(session), anyReply).recordCalls[0];
            var recorded := HandleRecord(call.request, table, id, db, mail);
            && call.request.email == None
            && recorded.response == Response(400, RecordError("Missing required fields"))
            && recorded.table == table && recorded.inserts == []
            && HandleLookup(Some(Single(sessionId)), baseUrl, Retrieved(session), ReplyOf(recorded)).response
               == Response(500, LookupError("Failed to save purchase info"))
  {
    var params := HandleCheckout(checkout, siteUrl, created).calls[0];
    assert "email" !in params.metadata;
  }

  /** With both corrections (the email taken from the session's customer
      email, and stored in normal form), a paid checkout that named an
      email, a PDF and a project is recorded: one row is inserted and the
      thank-you page gets 200 with that row's code. */
  lemma CorrectedLookupRecords(
    checkout: CheckoutRequest, siteUrl: string, created: CreateReply,
    session: CheckoutSession, sessionId: string, baseUrl: string,
    table: seq<Row>, id: NanoId, mail: MailResult, anyReply: FetchReply<JsValue>)
    requires HandleCheckout(checkout, siteUrl, created).calls != []
    requires SessionFrom(session, HandleCheckout(checkout, siteUrl, created).calls[0])
    requires Filled(checkout.email) && Filled(checkout.pdfUrl) && Filled(checkout.projectName)
    requires sessionId != ""
    ensures var call := HandleLookupCorrected(Some(Single(sessionId)), baseUrl, Retrieved(session), anyReply).recordCalls[0];
            var recorded := HandleRecordCorrected(call.request, table, id, DbOk, mail);
            && |recorded.inserts| == 1 && recorded.table == table + recorded.inserts
            && recorded.inserts[0].email == NormalizeEmail(checkout.email.value)
            && recorded.inserts[0].pdfUrl == checkout.pdfUrl.value
            && recorded.inserts[0].projectName == checkout.projectName.value
            && HandleLookupCorrected(Some(Single(sessionId)), baseUrl, Retrieved(session), ReplyOf(recorded)).response
               == Response(200, Found(session.metadata.value, Some(checkout.pdfUrl.value), Str(recorded.inserts[0].code)))
  {
    var params := HandleCheckout(checkout, siteUrl, created).calls[0];
    var metadata := params.metadata;
    assert metadata == Checkout.Metadata(checkout, checkout.productType.value);
    assert "pdfUrl" in FixedKeys;
    assert metadata["pdfUrl"] == FixedEntries(checkout, checkout.productType.value)["pdfUrl"];
    assert Lookup(metadata, "pdfUrl") == checkout.pdfUrl;
    assert Lookup(metadata, "projectName") == checkout.projectName;
  }

  /** The lookup keeps no record of what it has recorded: looking the same
      session up twice inserts two rows for one purchase. */
  lemma RepeatedLookupRecordsTwice(
    session: CheckoutSession, sessionId: string, baseUrl: string, reply: FetchReply<JsValue>,
    table: seq<Row>, id1: NanoId, id2: NanoId, mail: MailResult)
    requires sessionId != ""
    requires Complete(RecordRequestCorrected(session))
    ensures var call := HandleLookupCorrected(Some(Single(sessionId)), baseUrl, Retrieved(session), reply).recordCalls[0];
            var first := HandleRecord(call.request, table, id1, DbOk, mail);
            var second := HandleRecord(call.request, first.table, id2, DbOk, mail);
            && |second.table| == |table| + 2
            && second.table[|table|].email == second.table[|table| + 1].email
            && second.table[|table|].pdfUrl == second.table[|table| + 1].pdfUrl
  {
  }

  // ---------------------------------------------------------------------
  // Recording → redemption

  /** The rows a lookup matches after one more row is appended. */
  lemma {:induction false} MatchingAppend(table: seq<Row>, row: Row, q: Query)
    ensures Matching(table + [row], q) == Matching(table, q) + (if Matches(row, q) then [row] else [])
  {
    if |table| == 0 {
      assert table + [row] == [row];
      assert Matching([row][1..], q) == [];
    } else {
      assert (table + [row])[1..] == table[1..] + [row];
      MatchingAppend(table[1..], row, q);
    }
  }

  /** No row matches, so the lookup keeps none. */
  lemma NoMatchNoRows(table: seq<Row>, q: Query)
    requires forall i :: 0 <= i < |table| ==> !Matches(table[i], q)
    ensures Matching(table, q) == []
  {
  }

  /** A row whose email is not in normal form (it holds an upper-case
      letter or surrounding white space) is invisible to redemption: no
      request, whatever email and code it sends, looks it up. */
  lemma UnnormalisedRowNeverMatched(row: Row, req: RedeemRequest, table: seq<Row>, queryFails: bool)
    requires !NormalEmail(row.email)
    requires HandleRedeem(req, table, queryFails).queries != []
    ensures !Matches(row, HandleRedeem(req, table, queryFails).queries[0])
  {
    assert NormalEmail(NormalizeEmail(req.email.value));
  }

  /** As written, recording a purchase whose email is not in normal form
      changes nothing for redemption: every redemption request gets exactly
      the answer it got before the row was inserted. */
  lemma MixedCaseEmailUnredeemable(
    rec: RecordRequest, table: seq<Row>, id: NanoId, mail: MailResult,
    redeem: RedeemRequest, queryFails: bool)
    requires rec.httpMethod == Post && Complete(rec)
    requires !NormalEmail(rec.email.value)
    ensures var after := HandleRecord(rec, table, id, DbOk, mail).table;
            && |after| == |table| + 1
            && HandleRedeem(redeem, after, queryFails) == HandleRedeem(redeem, table, queryFails)
  {
    var recorded := HandleRecord(rec, table, id, DbOk, mail);
    var row := recorded.inserts[0];
    if HandleRedeem(redeem, table, queryFails).queries != [] {
      var q := HandleRedeem(redeem, table, queryFails).queries[0];
      UnnormalisedRowNeverMatched(row, redeem, table, queryFails);
      MatchingAppend(table, row, q);
    }
  }

  /** A table holding one row whose email is not in normal form turns away
      a request with exactly that email, whatever code it carries. */
  lemma UnnormalisedRowRefused(row: Row, code: string)
    requires row.email != "" && !NormalEmail(row.email) && code != ""
    ensures HandleRedeem(RedeemRequest(Post, Some(row.email), Some(code)), [row], false).response
            == Response(404, RedeemError("Not found"))
  {
    var q := Query(NormalizeEmail(row.email), NormalizeCode(code));
    assert !Matches(row, q) by {
      assert NormalizeEmail(row.email) != row.email;
    }
    assert Matching([row], q) == [];
    assert HandleRedeem(RedeemRequest(Post, Some(row.email), Some(code)), [row], false).queries == [q];
  }

  /** As written, a buyer whose email is not in normal form is recorded,
      then sends back exactly that email and the code they were given, and
      is told "Not found". */
  lemma UnnormalisedBuyerTurnedAway(email: string, id: NanoId, mail: MailResult)
    requires email != "" && !NormalEmail(email)
    ensures var rec := RecordRequest(Post, Some(email), Some("pdf"), Some("p"), Null);
            var recorded := HandleRecord(rec, [], id, DbOk, mail);
            && recorded.response.status == 200
            && HandleRedeem(RedeemRequest(Post, Some(email), Some(recorded.response.body.code)),
                            recorded.table, false).response
               == Response(404, RedeemError("Not found"))
  {
    var rec := RecordRequest(Post, Some(email), Some("pdf"), Some("p"), Null);
    assert Complete(rec);
    var recorded := HandleRecord(rec, [], id, DbOk, mail);
    assert recorded.response.status == 200;
    var row := recorded.inserts[0];
    assert row.email == email && recorded.table == [row];
    UnnormalisedRowRefused(row, recorded.response.body.code);
  }

  /** A concrete case: a buyer who typed "Buyer@Example.com" is turned away
      with the code they were given. */
  lemma BuyerWithCapitalsIsTurnedAway(id: NanoId, mail: MailResult)
    ensures var rec := RecordRequest(Post, Some("Buyer@Example.com"), Some("pdf"), Some("p"), Null);
            var recorded := HandleRecord(rec, [], id, DbOk, mail);
            && recorded.response.status == 200
            && HandleRedeem(RedeemRequest(Post, Some("Buyer@Example.com"), Some(recorded.response.body.code)),
                            recorded.table, false).response
               == Response(404, RedeemError("Not found"))
  {
    var email := "Buyer@Example.com";
    assert !NormalEmail(email) by {
      assert email[0] == 'B';
    }
    UnnormalisedBuyerTurnedAway(email, id, mail);
  }

  /** `typed` is `original` up to letter case, and `pre`, `post` are white
      space to surround it with. */
  predicate Retyped(typed: string, original: string, pre: string, post: string) {
    AllSpace(pre) && AllSpace(post) && ToLower(typed) == ToLower(original)
  }

  /** No row of `table` has this email and code. */
  predicate Unused(table: seq<Row>, email: string, code: string) {
    forall i :: 0 <= i < |table| ==> !(table[i].email == email && table[i].code == code)
  }

  /** A padded, re-cased copy of a non-empty email is filled and
      normalises to the same lookup email. */
  lemma {:induction false} TypedEmail(email: string, ea: string, eb: string, typed: string)
    requires email != "" && Retyped(typed, email, ea, eb)
    ensures Filled(Some(ea + typed + eb))
    ensures NormalizeEmail(ea + typed + eb) == NormalizeEmail(email)
  {
    assert "" + email + "" == email;
    NormalizeEmailIgnores(ea, typed, eb, "", email, "");
    assert |typed| == |ToLower(typed)| == |email|;
  }

  /** A padded, re-cased copy of a code already in normal form is filled
      and normalises to the code itself. */
  lemma {:induction false} TypedCode(code: string, ca: string, cb: string, typed: string)
    requires code != "" && NormalCode(code) && Retyped(typed, code, ca, cb)
    ensures Filled(Some(ca + typed + cb))
    ensures NormalizeCode(ca + typed + cb) == code
  {
    assert "" + code + "" == code;
    NormalizeCodeFixes(code);
    NormalizeCodeIgnores(ca, typed, cb, "", code, "");
    assert |typed| == |ToLower(typed)| == |code|;
  }

  /** A request whose lookup is the appended row's email and code, when no
      earlier row has them, gets that row's PDF. */
  lemma {:induction false} RedeemsOnlyMatch(req: RedeemRequest, table: seq<Row>, row: Row)
    requires req.httpMethod == Post && Filled(req.email) && Filled(req.code)
    requires row.email == NormalizeEmail(req.email.value) && row.code == NormalizeCode(req.code.value)
    requires Unused(table, row.email, row.code)
    ensures HandleRedeem(req, table + [row], false).response == Response(200, Download(row.pdfUrl))
  {
    var q := Query(row.email, row.code);
    NoMatchNoRows(table, q);
    MatchingAppend(table, row, q);
  }

  /** The corrected recording of a complete request succeeds and appends
      one row holding the normalised email and the access code. */
  lemma CorrectedRecordAppends(rec: RecordRequest, table: seq<Row>, id: NanoId, mail: MailResult)
    requires rec.httpMethod == Post && Complete(rec)
    ensures var recorded := HandleRecordCorrected(rec, table, id, DbOk, mail);
            && recorded.response.status == 200
            && recorded.table == table + [Row(MakeCode(id), NormalizeEmail(rec.email.value), rec.pdfUrl.value,
                                              rec.projectName.value, rec.stripeData)]
  {
  }

  /** Redemption of a row stored with a normalised email and a code in
      normal form, by a padded, re-cased copy of both, when no earlier row
      has the same email and code. */
  lemma {:induction false} TypedRedeems(
    email: string, code: string, table: seq<Row>, row: Row,
    ea: string, eb: string, ca: string, cb: string, typedEmail: string, typedCode: string)
    requires email != "" && code != "" && NormalCode(code)
    requires row.email == NormalizeEmail(email) && row.code == code
    requires Retyped(typedEmail, email, ea, eb) && Retyped(typedCode, code, ca, cb)
    requires Unused(table, NormalizeEmail(email), code)
    ensures HandleRedeem(RedeemRequest(Post, Some(ea + typedEmail + eb), Some(ca + typedCode + cb)), table + [row], false).response
            == Response(200, Download(row.pdfUrl))
  {
    TypedEmail(email, ea, eb, typedEmail);
    TypedCode(code, ca, cb, typedCode);
    var req := RedeemRequest(Post, Some(ea + typedEmail + eb), Some(ca + typedCode + cb));
    RedeemsOnlyMatch(req, table, row);
  }

  /** With the email stored in normal form, a recorded purchase is
      redeemable: any request whose email and code normalise to the stored
      email and the code handed out yields the row's PDF, provided no
      earlier row has the same email and code. `TypedRedeems` shows which
      requests those are: the buyer's email and code, padded and re-cased. */
  lemma {:induction false} RecordedPurchaseRedeemable(
    rec: RecordRequest, table: seq<Row>, id: NanoId, mail: MailResult, typedEmail: string, typedCode: string)
    requires rec.httpMethod == Post && Complete(rec)
    requires Filled(Some(typedEmail)) && Filled(Some(typedCode))
    requires NormalizeEmail(typedEmail) == NormalizeEmail(rec.email.value) && NormalizeCode(typedCode) == MakeCode(id)
    requires Unused(table, NormalizeEmail(rec.email.value), MakeCode(id))
    ensures var recorded := HandleRecordCorrected(rec, table, id, DbOk, mail);
            && recorded.response.status == 200
            && HandleRedeem(RedeemRequest(Post, Some(typedEmail), Some(typedCode)), recorded.table, false).response
               == Response(200, Download(rec.pdfUrl.value))
  {
    var row := Row(MakeCode(id), NormalizeEmail(rec.email.value), rec.pdfUrl.value, rec.projectName.value, rec.stripeData);
    CorrectedRecordAppends(rec, table, id, mail);
    RedeemsOnlyMatch(RedeemRequest(Post, Some(typedEmail), Some(typedCode)), table, row);
  }
}

=== FILE: js_text.dfy ===
/** The JavaScript string methods the handlers call: `trim`, `toLowerCase`,
    `toUpperCase`, `split` on a one-character separator and `join`. */
module JsText {

  /** The characters `String.prototype.trim` removes: the ECMAScript
      WhiteSpace and LineTerminator code points. */
  predicate IsSpace(c: char) {
    var n := c as int;
    n == 0x09 || n == 0x0A || n == 0x0B || n == 0x0C || n == 0x0D || n == 0x20
    || n == 0xA0 || n == 0x1680 || (0x2000 <= n <= 0x200A) || n == 0x2028
    || n == 0x2029 || n == 0x202F || n == 0x205F || n == 0x3000 || n == 0xFEFF
  }

  predicate AllSpace(s: string) {
    forall i :: 0 <= i < |s| ==> IsSpace(s[i])
  }

  /** Leading white space removed. */
  function TrimStart(s: string): (r: string)
    ensures |r| <= |s| && r == s[|s| - |r|..]
    ensures AllSpace(s[..|s| - |r|])
    ensures r == [] || !IsSpace(r[0])
  {
    if |s| > 0 && IsSpace(s[0]) then
      var r := TrimStart(s[1..]);
      assert s[1..][..|s[1..]| - |r|] == s[1..|s| - |r|];
      r
    else s
  }

  /** Trailing white space removed. */
  function TrimEnd(s: string): (r: string)
    ensures |r| <= |s| && r == s[..|r|]
    ensures AllSpace(s[|r|..])
    ensures r == [] || !IsSpace(r[|r| - 1])
  {
    if |s| > 0 && IsSpace(s[|s| - 1]) then
      var r := TrimEnd(s[..|s| - 1]);
      assert s[..|s| - 1][|r|..] == s[|r|..|s| - 1];
      r
    else s
  }

  /** `s.trim()`: the text between a white-space prefix and a white-space
      suffix, with no white space left at either end. */
  function Trim(s: string): (r: string)
    ensures exists i, j :: 0 <= i <= j <= |s| && AllSpace(s[..i]) && AllSpace(s[j..]) && r == s[i..j]
    ensures r == [] || (!IsSpace(r[0]) && !IsSpace(r[|r| - 1]))
  {
    var u := TrimStart(s);
    var t := TrimEnd(u);
    var i := |s| - |u|;
    assert u[|t|..] == s[i + |t|..];
    assert t == s[i..i + |t|];
    assert t != [] ==> t[0] == u[0];
    t
  }

  /** Upper-case ASCII letters mapped to lower case; every other character kept. */
  function LowerChar(c: char): char {
    if 'A' <= c <= 'Z' then (c as int + 32) as char else c
  }

  /** Lower-case ASCII letters mapped to upper case; every other character kept. */
  function UpperChar(c: char): char {
    if 'a' <= c <= 'z' then (c as int - 32) as char else c
  }

  /** `s.toLowerCase()`, on ASCII letters. */
  function ToLower(s: string): (r: string)
    ensures |r| == |s|
    ensures forall i :: 0 <= i < |s| ==> r[i] == LowerChar(s[i])
    ensures HasNoUpper(r)
  {
    seq(|s|, i requires 0 <= i < |s| => LowerChar(s[i]))
  }

  /** `s.toUpperCase()`, on ASCII letters. */
  function ToUpper(s: string): (r: string)
    ensures |r| == |s|
    ensures forall i :: 0 <= i < |s| ==> r[i] == UpperChar(s[i])
    ensures HasNoLower(r)
  {
    seq(|s|, i requires 0 <= i < |s| => UpperChar(s[i]))
  }

  predicate HasNoLower(s: string) {
    forall i :: 0 <= i < |s| ==> !('a' <= s[i] <= 'z')
  }

  predicate HasNoUpper(s: string) {
    forall i :: 0 <= i < |s| ==> !('A' <= s[i] <= 'Z')
  }

  /** Index of the first occurrence of `c`, or `|s|` when there is none. */
  function IndexOf(s: string, c: char): (r: nat)
    ensures r <= |s|
    ensures c !in s[..r]
    ensures r < |s| ==> s[r] == c
  {
    if |s| == 0 then 0
    else if s[0] == c then 0
    else
      var r := 1 + IndexOf(s[1..], c);
      assert s[..r] == [s[0]] + s[1..][..r - 1];
      r
  }

  /** `s.split(sep)` for a one-character separator: the maximal runs between
      separators, always at least one (possibly empty) piece. */
  function Split(s: string, sep: char): (parts: seq<string>)
    ensures |parts| >= 1
    ensures forall i :: 0 <= i < |parts| ==> sep !in parts[i]
  {
    if |s| == 0 then [""]
    else
      var tail := Split(s[1..], sep);
      if s[0] == sep then [""] + tail
      else [[s[0]] + tail[0]] + tail[1..]
  }

  /** `parts.join(sep)`. */
  function Join(parts: seq<string>, sep: char): string {
    if |parts| == 0 then ""
    else if |parts| == 1 then parts[0]
    else parts[0] + [sep] + Join(parts[1..], sep)
  }

  /** Joining the pieces of a split with the same separator gives back the
      original string. */
  lemma {:induction false} JoinSplit(s: string, sep: char)
    ensures Join(Split(s, sep), sep) == s
  {
    if |s| == 0 {
    } else {
      var tail := Split(s[1..], sep);
      JoinSplit(s[1..], sep);
      if s[0] == sep {
        assert Split(s, sep) == [""] + tail;
        assert ([""] + tail)[1..] == tail;
      } else {
        var parts := Split(s, sep);
        assert parts == [[s[0]] + tail[0]] + tail[1..];
        if |tail| == 1 {
          assert s == [s[0]] + s[1..];
        } else {
          assert parts[1..] == tail[1..];
          assert Join(parts, sep) == [s[0]] + (tail[0] + [sep] + Join(tail[1..], sep));
          assert s == [s[0]] + s[1..];
        }
      }
    }
  }

  /** The first piece of a split is the text before the first separator, and
      the remaining pieces rejoined are the text after it. */
  lemma SplitAtFirst(s: string, sep: char)
    ensures Split(s, sep)[0] == s[..IndexOf(s, sep)]
    ensures Join(Split(s, sep)[1..], sep)
            == if IndexOf(s, sep) < |s| then s[IndexOf(s, sep) + 1..] else ""
  {
    var parts := Split(s, sep);
    var i := IndexOf(s, sep);
    JoinSplit(s, sep);
    if |parts| == 1 {
      assert s == parts[0];
      assert sep !in s;
      assert i == |s|;
    } else {
      assert s == parts[0] + [sep] + Join(parts[1..], sep);
      assert s[|parts[0]|] == sep;
      assert s[..|parts[0]|] == parts[0];
      assert i == |parts[0]|;
      assert s[i + 1..] == Join(parts[1..], sep);
    }
  }

  /** Surrounding white space does not change the result of `trim`. */
  lemma {:induction false} TrimIgnoresPadding(a: string, s: string, b: string)
    requires AllSpace(a) && AllSpace(b)
    ensures Trim(a + s + b) == Trim(s)
  {
    assert a + s + b == a + (s + b);
    TrimStartSkipsPrefix(a, s + b);
    TrimStartOfConcat(s, b);
    var t := TrimStart(s);
    if t == [] {
      assert TrimStart(a + s + b) == [];
    } else {
      assert TrimStart(a + s + b) == t + b;
      TrimEndSkipsSuffix(t, b);
    }
  }

  lemma {:induction false} TrimStartSkipsPrefix(a: string, s: string)
    requires AllSpace(a)
    ensures TrimStart(a + s) == TrimStart(s)
  {
    if |a| > 0 {
      assert (a + s)[1..] == a[1..] + s;
      TrimStartSkipsPrefix(a[1..], s);
    } else {
      assert a + s == s;
    }
  }

  lemma {:induction false} TrimStartOfConcat(s: string, b: string)
    requires AllSpace(b)
    ensures TrimStart(s) != [] ==> TrimStart(s + b) == TrimStart(s) + b
    ensures TrimStart(s) == [] ==> TrimStart(s + b) == []
  {
    if |s| == 0 {
      assert s + b == b;
      AllSpaceTrimsAway(b);
    } else if IsSpace(s[0]) {
      assert (s + b)[1..] == s[1..] + b;
      TrimStartOfConcat(s[1..], b);
    } else {
      assert (s + b)[0] == s[0];
    }
  }

  lemma {:induction false} AllSpaceTrimsAway(b: string)
    requires AllSpace(b)
    ensures TrimStart(b) == []
  {
    if |b| > 0 {
      AllSpaceTrimsAway(b[1..]);
    }
  }

  lemma {:induction false} TrimEndSkipsSuffix(t: string, b: string)
    requires AllSpace(b)
    ensures TrimEnd(t + b) == TrimEnd(t)
  {
    if |b| > 0 {
      var u := t + b;
      assert u[..|u| - 1] == t + b[..|b| - 1];
      TrimEndSkipsSuffix(t, b[..|b| - 1]);
    } else {
      assert t + b == t;
    }
  }

  /** Trimming an already trimmed string changes nothing. */
  lemma TrimIdempotent(s: string)
    ensures Trim(Trim(s)) == Trim(s)
  {
    var t := Trim(s);
    if t != [] {
      assert TrimStart(t) == t;
      assert TrimEnd(t) == t;
    }
  }

  /** Case mapping keeps white space in place, so it commutes with `trim`. */
  lemma {:induction false} TrimLower(s: string)
    ensures Trim(ToLower(s)) == ToLower(Trim(s))
  {
    TrimStartLower(s);
    TrimEndLower(TrimStart(s));
  }

  lemma {:induction false} TrimStartLower(s: string)
    ensures TrimStart(ToLower(s)) == ToLower(TrimStart(s))
  {
    if |s| > 0 {
      var m := ToLower(s);
      assert m[0] == LowerChar(s[0]);
      if IsSpace(s[0]) {
        assert IsSpace(m[0]);
        assert m[1..] == ToLower(s[1..]);
        TrimStartLower(s[1..]);
      } else {
        assert !IsSpace(m[0]);
      }
    }
  }

  lemma {:induction false} TrimEndLower(s: string)
    ensures TrimEnd(ToLower(s)) == ToLower(TrimEnd(s))
  {
    if |s| > 0 {
      var m := ToLower(s);
      var n := |s| - 1;
      assert m[n] == LowerChar(s[n]);
      if IsSpace(s[n]) {
        assert IsSpace(m[n]);
        assert m[..n] == ToLower(s[..n]);
        TrimEndLower(s[..n]);
      } else {
        assert !IsSpace(m[n]);
      }
    }
  }

  lemma {:induction false} TrimUpper(s: string)
    ensures Trim(ToUpper(s)) == ToUpper(Trim(s))
  {
    TrimStartUpper(s);
    TrimEndUpper(TrimStart(s));
  }

  lemma {:induction false} TrimStartUpper(s: string)
    ensures TrimStart(ToUpper(s)) == ToUpper(TrimStart(s))
  {
    if |s| > 0 {
      var m := ToUpper(s);
      assert m[0] == UpperChar(s[0]);
      if IsSpace(s[0]) {
        assert IsSpace(m[0]);
        assert m[1..] == ToUpper(s[1..]);
        TrimStartUpper(s[1..]);
      } else {
        assert !IsSpace(m[0]);
      }
    }
  }

  lemma {:induction false} TrimEndUpper(s: string)
    ensures TrimEnd(ToUpper(s)) == ToUpper(TrimEnd(s))
  {
    if |s| > 0 {
      var m := ToUpper(s);
      var n := |s| - 1;
      assert m[n] == UpperChar(s[n]);
      if IsSpace(s[n]) {
        assert IsSpace(m[n]);
        assert m[..n] == ToUpper(s[..n]);
        TrimEndUpper(s[..n]);
      } else {
        assert !IsSpace(m[n]);
      }
    }
  }

  /** Upper-casing before lower-casing changes nothing, and the other way round. */
  lemma CaseMappingsAbsorb(s: string)
    ensures ToLower(ToUpper(s)) == ToLower(s)
    ensures ToUpper(ToLower(s)) == ToUpper(s)
    ensures ToLower(ToLower(s)) == ToLower(s)
    ensures ToUpper(ToUpper(s)) == ToUpper(s)
  {
  }
}

=== FILE: js_value.dfy ===
/** JavaScript values as they travel in request bodies, provider payloads and
    JSON text. Numbers are integer-valued. */
module JsValues {

  datatype JsValue =
    | Undefined
    | Null
    | Bool(b: bool)
    | Num(n: int)
    | Str(s: string)
    | Arr(items: seq<JsValue>)
    | Obj(members: seq<Member>)

  /** One property of an object. An object's members are kept in the order
      they are listed, and a key may occur more than once; a JavaScript
      object lists integer-like keys first and holds each key once. */
  datatype Member = Member(key: string, value: JsValue)

  /** JavaScript truthiness: `undefined`, `null`, `false`, `0` and `""` are
      falsy; every array and object is truthy, even an empty one. */
  predicate Truthy(v: JsValue) {
    match v
    case Undefined => false
    case Null => false
    case Bool(b) => b
    case Num(n) => n != 0
    case Str(s) => s != ""
    case Arr(_) => true
    case Obj(_) => true
  }

  /** Member `i` is named `key` and no later member is. */
  predicate LastWithKey(members: seq<Member>, key: string, i: int) {
    0 <= i < |members| && members[i].key == key
    && forall j :: i < j < |members| ==> members[j].key != key
  }

  /** The value of the last member named `key` (a later duplicate key wins
      when JSON is parsed), or `Undefined` when there is none. */
  function LastValue(members: seq<Member>, key: string): (r: JsValue)
    ensures (forall i :: 0 <= i < |members| ==> members[i].key != key) ==> r == Undefined
    ensures forall i :: LastWithKey(members, key, i) ==> r == members[i].value
    ensures r != Undefined ==> exists i :: 0 <= i < |members| && members[i] == Member(key, r)
  {
    if |members| == 0 then Undefined
    else if members[|members| - 1].key == key then members[|members| - 1].value
    else LastValue(members[..|members| - 1], key)
  }

  /** Property read `v.key` for a non-index key: the member of an object,
      `undefined` on every other kind of value. Reading a property of
      `undefined` or `null` throws; callers check that case first. */
  function Get(v: JsValue, key: string): (r: JsValue)
    ensures !v.Obj? ==> r == Undefined
    ensures v.Obj? && (forall i :: 0 <= i < |v.members| ==> v.members[i].key != key) ==> r == Undefined
    ensures v.Obj? ==> forall i :: LastWithKey(v.members, key, i) ==> r == v.members[i].value
  {
    if v.Obj? then LastValue(v.members, key) else Undefined
  }

  /** No `undefined` anywhere inside: the values JSON text can denote. */
  predicate Plain(v: JsValue) {
    match v
    case Undefined => false
    case Arr(items) => forall i :: 0 <= i < |items| ==> Plain(items[i])
    case Obj(members) => forall i :: 0 <= i < |members| ==> Plain(members[i].value)
    case _ => true
  }
}

=== FILE: json_read.dfy ===
/** A strict reader for the JSON text `JSON.stringify` writes. It is a
    reference definition: it gives "holds the JSON of x" a meaning that can
    be checked, through the round trip `Read(Stringify(v)) == Some(v)`. */
module JsonRead {
  import opened Common
  import opened JsValues
  import opened Numerals
  import opened JsonText

  /** The character a backslash escape denotes and how many characters
      after the backslash it spans. */
  function Unescape(e: string): (r: Option<(char, nat)>)
    ensures r.Some? ==> 1 <= r.value.1 <= |e|
  {
    if |e| == 0 then None
    else if e[0] == '"' then Some(('"', 1))
    else if e[0] == '\\' then Some(('\\', 1))
    else if e[0] == '/' then Some(('/', 1))
    else if e[0] == 'b' then Some((8 as char, 1))
    else if e[0] == 't' then Some((9 as char, 1))
    else if e[0] == 'n' then Some((10 as char, 1))
    else if e[0] == 'f' then Some((12 as char, 1))
    else if e[0] == 'r' then Some((13 as char, 1))
    else if e[0] == 'u' && |e| >= 5
      && DigitOf(e[1]) < 16 && DigitOf(e[2]) < 16 && DigitOf(e[3]) < 16 && DigitOf(e[4]) < 16 then
      var n := DigitOf(e[1]) * 4096 + DigitOf(e[2]) * 256 + DigitOf(e[3]) * 16 + DigitOf(e[4]);
      if 0xD800 <= n <= 0xDFFF then None else Some((n as char, 5))
    else None
  }

  /** The contents of a string literal up to its closing quote, and the text after it. */
  function ReadChars(s: string): (r: Option<(string, string)>)
    ensures r.Some? ==> |r.value.1| < |s|
    decreases |s|
  {
    if |s| == 0 then None
    else if s[0] == '"' then Some(("", s[1..]))
    else if s[0] == '\\' then
      match Unescape(s[1..])
      case None => None
      case Some((c, k)) =>
        match ReadChars(s[1 + k..])
        case None => None
        case Some((t, rest)) => Some(([c] + t, rest))
    else if (s[0] as int) < 0x20 then None
    else
      match ReadChars(s[1..])
      case None => None
      case Some((t, rest)) => Some(([s[0]] + t, rest))
  }

  /** An optional minus sign and a run of decimal digits. */
  function ReadNumber(s: string): (r: Option<(JsValue, string)>)
    ensures r.Some? ==> |r.value.1| < |s|
  {
    if |s| > 0 && s[0] == '-' then
      var k := Span(s[1..], 10);
      if k == 0 then None else Some((Num(-(Value(s[1..][..k], 10) as int)), s[1..][k..]))
    else
      var k := Span(s, 10);
      if k == 0 then None else Some((Num(Value(s[..k], 10)), s[k..]))
  }

  function ReadWord(s: string, word: string, v: JsValue): (r: Option<(JsValue, string)>)
    requires |word| > 0
    ensures r.Some? ==> |r.value.1| < |s|
  {
    if |s| >= |word| && s[..|word|] == word then Some((v, s[|word|..])) else None
  }

  /** One value at the front of `s`, and the text after it. */
  function ReadValue(s: string): (r: Option<(JsValue, string)>)
    ensures r.Some? ==> |r.value.1| < |s|
    decreases |s|, 0
  {
    if |s| == 0 then None
    else if s[0] == 'n' then ReadWord(s, "null", Null)
    else if s[0] == 't' then ReadWord(s, "true", Bool(true))
    else if s[0] == 'f' then ReadWord(s, "false", Bool(false))
    else if s[0] == '"' then
      match ReadChars(s[1..])
      case None => None
      case Some((t, rest)) => Some((Str(t), rest))
    else if s[0] == '[' then
      if |s| >= 2 && s[1] == ']' then Some((Arr([]), s[2..]))
      else
        match ReadItems(s[1..])
        case None => None
        case Some((items, rest)) => Some((Arr(items), rest))
    else if s[0] == '{' then
      if |s| >= 2 && s[1] == '}' then Some((Obj([]), s[2..]))
      else
        match ReadMembers(s[1..])
        case None => None
        case Some((members, rest)) => Some((Obj(members), rest))
    else ReadNumber(s)
  }

  /** Array elements up to and including the closing bracket. */
  function ReadItems(s: string): (r: Option<(seq<JsValue>, string)>)
    ensures r.Some? ==> |r.value.1| < |s|
    decreases |s|, 1
  {
    match ReadValue(s)
    case None => None
    case Some((v, rest)) =>
      if |rest| == 0 then None
      else if rest[0] == ']' then Some(([v], rest[1..]))
      else if rest[0] == ',' then
        match ReadItems(rest[1..])
        case None => None
        case Some((vs, rest2)) => Some(([v] + vs, rest2))
      else None
  }

  /** One `"key":value` pair, and the text after it. */
  function ReadMember(s: string): (r: Option<(Member, string)>)
    ensures r.Some? ==> |r.value.1| < |s|
    decreases |s|, 1
  {
    if |s| == 0 || s[0] != '"' then None
    else
      match ReadChars(s[1..])
      case None => None
      case Some((key, r1)) =>
        if |r1| == 0 || r1[0] != ':' then None
        else
          match ReadValue(r1[1..])
          case None => None
          case Some((v, r2)) => Some((Member(key, v), r2))
  }

  /** Object members up to and including the closing brace. */
  function ReadMembers(s: string): (r: Option<(seq<Member>, string)>)
    ensures r.Some? ==> |r.value.1| < |s|
    decreases |s|, 2
  {
    match ReadMember(s)
    case None => None
    case Some((m, rest)) =>
      if |rest| == 0 then None
      else if rest[0] == '}' then Some(([m], rest[1..]))
      else if rest[0] == ',' then
        match ReadMembers(rest[1..])
        case None => None
        case Some((ms, rest2)) => Some(([m] + ms, rest2))
      else None
  }

  /** The value a whole text denotes, if it is exactly one value. */
  function Read(s: string): Option<JsValue> {
    match ReadValue(s)
    case None => None
    case Some((v, rest)) => if rest == "" then Some(v) else None
  }

  /** Text that cannot extend a number read just before it. */
  predicate Stops(rest: string) {
    rest == [] || !IsDigit(rest[0])
  }

  lemma ReadEscaped(c: char, tail: string)
    ensures ReadChars(Escape(c) + tail)
            == match ReadChars(tail)
               case None => None
               case Some((t, rest)) => Some(([c] + t, rest))
  {
    var n := c as int;
    if c == '"' || c == '\\' || (n >= 0x08 && n <= 0x0D && n != 0x0B) {
      ReadShortEscape(c, tail);
    } else if n < 0x20 {
      ReadUnicodeEscape(c, tail);
    } else {
      var s := Escape(c) + tail;
      assert s[0] == c && s[1..] == tail;
    }
  }

  /** A backslash whose escape denotes `c` and spans `k` characters. */
  lemma ReadCharsEscape(s: string, c: char, k: nat)
    requires |s| > 0 && s[0] == '\\' && Unescape(s[1..]) == Some((c, k))
    ensures ReadChars(s)
            == match ReadChars(s[1 + k..])
               case None => None
               case Some((t, rest)) => Some(([c] + t, rest))
  {
  }

  lemma ReadShortEscape(c: char, tail: string)
    requires c == '"' || c == '\\' || ((c as int) >= 0x08 && (c as int) <= 0x0D && (c as int) != 0x0B)
    ensures ReadChars(Escape(c) + tail)
            == match ReadChars(tail)
               case None => None
               case Some((t, rest)) => Some(([c] + t, rest))
  {
    var s := Escape(c) + tail;
    assert |Escape(c)| == 2 && s[0] == '\\';
    assert s[1..][0] == s[1];
    assert Unescape(s[1..]) == Some((c, 1));
    assert s[2..] == tail;
    ReadCharsEscape(s, c, 1);
  }

  lemma ReadUnicodeEscape(c: char, tail: string)
    requires (c as int) < 0x20 && !((c as int) >= 0x08 && (c as int) <= 0x0D && (c as int) != 0x0B)
    ensures ReadChars(Escape(c) + tail)
            == match ReadChars(tail)
               case None => None
               case Some((t, rest)) => Some(([c] + t, rest))
  {
    var n := c as int;
    var s := Escape(c) + tail;
    var e := s[1..];
    assert s[0] == '\\';
    assert e[..5] == ['u', '0', '0', HexDigit(n / 16), HexDigit(n % 16)];
    assert Unescape(e) == Some((c, 5));
    assert s[6..] == tail;
    ReadCharsEscape(s, c, 5);
  }

  /** A quoted string reads back as itself. */
  lemma {:induction false} ReadQuoted(t: string, rest: string)
    ensures ReadChars(EscapeAll(t) + "\"" + rest) == Some((t, rest))
  {
    if |t| == 0 {
      var s := "\"" + rest;
      assert EscapeAll(t) + "\"" + rest == s;
      assert s[0] == '"' && s[1..] == rest;
    } else {
      var x := EscapeAll(t[1..]) + "\"" + rest;
      ReadQuoted(t[1..], rest);
      assert EscapeAll(t) == Escape(t[0]) + EscapeAll(t[1..]);
      assert EscapeAll(t) + "\"" + rest == Escape(t[0]) + x;
      ReadEscaped(t[0], x);
      assert [t[0]] + t[1..] == t;
    }
  }

  /** Digits followed by a stop: the reader takes exactly the digits. */
  lemma ReadDigits(ds: string, rest: string)
    requires |ds| > 0 && AllDigits(ds) && Stops(rest)
    ensures Span(ds + rest, 10) == |ds|
    ensures (ds + rest)[..|ds|] == ds
    ensures (ds + rest)[|ds|..] == rest
  {
    SpanOfDigits(ds, rest);
  }

  lemma ReadDecimal(n: int, rest: string)
    requires Stops(rest)
    ensures ReadNumber(IntToDecimal(n) + rest) == Some((Num(n), rest))
  {
    if n < 0 {
      ReadNegativeDecimal(n, rest);
    } else {
      var ds := NatToDecimal(n);
      assert IntToDecimal(n) == ds;
      ReadPlainDigits(ds, rest);
      DecimalValue(n);
    }
  }

  lemma ReadNegativeDecimal(n: int, rest: string)
    requires n < 0 && Stops(rest)
    ensures ReadNumber(IntToDecimal(n) + rest) == Some((Num(n), rest))
  {
    var ds := NatToDecimal(-n);
    assert IntToDecimal(n) == "-" + ds;
    ReadNegativeDigits(ds, rest);
    DecimalValue(-n);
  }

  lemma ReadPlainDigits(ds: string, rest: string)
    requires |ds| > 0 && AllDigits(ds) && Stops(rest)
    ensures ReadNumber(ds + rest) == Some((Num(Value(ds, 10)), rest))
  {
    assert (ds + rest)[0] == ds[0] && IsDigit(ds[0]);
    ReadDigits(ds, rest);
    ReadNumberPlain(ds + rest, ds, rest);
  }

  lemma ReadNegativeDigits(ds: string, rest: string)
    requires |ds| > 0 && AllDigits(ds) && Stops(rest)
    ensures ReadNumber("-" + ds + rest) == Some((Num(-(Value(ds, 10) as int)), rest))
  {
    var u := ds + rest;
    assert "-" + ds + rest == "-" + u;
    assert ("-" + u)[0] == '-' && ("-" + u)[1..] == u;
    ReadDigits(ds, rest);
    ReadNumberNegative("-" + u, ds, rest);
  }

  /** `ReadNumber` unfolded on a minus sign followed by the digits `ds`. */
  lemma ReadNumberNegative(s: string, ds: string, rest: string)
    requires |s| > 0 && s[0] == '-' && |ds| > 0
    requires Span(s[1..], 10) == |ds| && s[1..][..|ds|] == ds && s[1..][|ds|..] == rest
    ensures ReadNumber(s) == Some((Num(-(Value(ds, 10) as int)), rest))
  {
  }

  /** `ReadNumber` unfolded on the digits `ds` without a sign. */
  lemma ReadNumberPlain(s: string, ds: string, rest: string)
    requires |s| > 0 && s[0] != '-' && |ds| > 0
    requires Span(s, 10) == |ds| && s[..|ds|] == ds && s[|ds|..] == rest
    ensures ReadNumber(s) == Some((Num(Value(ds, 10)), rest))
  {
  }

  /** Every value without `undefined` inside reads back from its JSON text,
      whatever follows it (as long as it cannot extend a number). */
  lemma {:induction false} ReadBack(v: JsValue, rest: string)
    requires Plain(v) && Stops(rest)
    ensures ReadValue(Stringify(v) + rest) == Some((v, rest))
    decreases v, 1
  {
    match v
    case Null => ReadBackWord(v, "null", rest);
    case Bool(b) => ReadBackWord(v, if b then "true" else "false", rest);
    case Num(n) => ReadBackNumber(n, rest);
    case Str(t) => ReadBackString(t, rest);
    case Arr(items) => ReadBackArray(v, rest);
    case Obj(members) => ReadBackObject(v, rest);
  }

  lemma ReadBackNumber(n: int, rest: string)
    requires Stops(rest)
    ensures ReadValue(Stringify(Num(n)) + rest) == Some((Num(n), rest))
  {
    var s := IntToDecimal(n) + rest;
    assert Stringify(Num(n)) + rest == s;
    assert s[0] == IntToDecimal(n)[0];
    ReadValueNumber(s);
    ReadDecimal(n, rest);
  }

  /** `ReadValue` hands text starting with a sign or a digit to `ReadNumber`. */
  lemma ReadValueNumber(s: string)
    requires |s| > 0 && (s[0] == '-' || IsDigit(s[0]))
    ensures ReadValue(s) == ReadNumber(s)
  {
    assert s[0] != 'n' && s[0] != 't' && s[0] != 'f' && s[0] != '"' && s[0] != '[' && s[0] != '{';
  }

  lemma ReadBackWord(v: JsValue, word: string, rest: string)
    requires v == Null || v == Bool(true) || v == Bool(false)
    requires word == Stringify(v)
    ensures ReadValue(Stringify(v) + rest) == Some((v, rest))
  {
    var s := word + rest;
    assert s[..|word|] == word;
    assert s[|word|..] == rest;
  }

  lemma ReadBackString(t: string, rest: string)
    ensures ReadValue(Stringify(Str(t)) + rest) == Some((Str(t), rest))
  {
    var s := Stringify(Str(t)) + rest;
    assert s == "\"" + (EscapeAll(t) + "\"" + rest);
    assert s[1..] == EscapeAll(t) + "\"" + rest;
    ReadQuoted(t, rest);
  }

  lemma {:induction false} ReadBackArray(v: JsValue, rest: string)
    requires v.Arr? && Plain(v)
    ensures ReadValue(Stringify(v) + rest) == Some((v, rest))
    decreases v, 0
  {
    var s := Stringify(v) + rest;
    var items := v.items;
    if |items| == 0 {
      assert ItemsText(items) == "";
      assert s == "[]" + rest;
      assert s[2..] == rest;
    } else {
      assert s == "[" + (ItemsText(items) + "]" + rest);
      assert s[1..] == ItemsText(items) + "]" + rest;
      assert s[1] == Stringify(items[0])[0];
      ReadBackItems(items, rest);
      ReadArrayStep(s, items, rest);
    }
  }

  lemma {:induction false} ReadBackObject(v: JsValue, rest: string)
    requires v.Obj? && Plain(v)
    ensures ReadValue(Stringify(v) + rest) == Some((v, rest))
    decreases v, 0
  {
    var s := Stringify(v) + rest;
    var members := v.members;
    if |members| == 0 {
      assert MembersText(members) == "";
      assert s == "{}" + rest;
      assert s[2..] == rest;
    } else {
      var body := MembersText(members) + "}" + rest;
      assert s == "{" + body;
      assert s[0] == '{' && s[1..] == body;
      MembersTextStart(members);
      assert s[1] == '"';
      ReadBackMembers(members, rest);
      ReadObjectStep(s, members, rest);
    }
  }

  /** `ReadValue` on a non-empty object: the brace, then the members. */
  lemma ReadObjectStep(s: string, members: seq<Member>, rest: string)
    requires |s| >= 2 && s[0] == '{' && s[1] != '}' && ReadMembers(s[1..]) == Some((members, rest))
    ensures ReadValue(s) == Some((Obj(members), rest))
  {
  }

  /** `ReadValue` on a non-empty array: the bracket, then the items. */
  lemma ReadArrayStep(s: string, items: seq<JsValue>, rest: string)
    requires |s| >= 2 && s[0] == '[' && s[1] != ']' && ReadItems(s[1..]) == Some((items, rest))
    ensures ReadValue(s) == Some((Arr(items), rest))
  {
  }

  /** `ReadItems` after its first value: a closing bracket ends the items, a
      comma continues them. */
  lemma ReadItemsStep(s: string, v: JsValue, r: string)
    requires ReadValue(s) == Some((v, r)) && |r| > 0
    ensures r[0] == ']' ==> ReadItems(s) == Some(([v], r[1..]))
    ensures r[0] == ',' && ReadItems(r[1..]).Some? ==>
              ReadItems(s) == Some(([v] + ReadItems(r[1..]).value.0, ReadItems(r[1..]).value.1))
  {
  }

  lemma {:induction false} ReadBackItems(items: seq<JsValue>, rest: string)
    requires |items| > 0
    requires forall i :: 0 <= i < |items| ==> Plain(items[i])
    ensures ReadItems(ItemsText(items) + "]" + rest) == Some((items, rest))
    decreases items
  {
    var first := Stringify(items[0]);
    if |items| == 1 {
      assert ItemsText(items) + "]" + rest == first + ("]" + rest);
      ReadBack(items[0], "]" + rest);
      assert ("]" + rest)[1..] == rest;
      ReadItemsStep(first + ("]" + rest), items[0], "]" + rest);
      assert [items[0]] == items;
    } else {
      var tail := ItemsText(items[1..]) + "]" + rest;
      assert ItemsText(items) + "]" + rest == first + ("," + tail);
      ReadBack(items[0], "," + tail);
      assert ("," + tail)[1..] == tail;
      ReadBackItems(items[1..], rest);
      ReadItemsStep(first + ("," + tail), items[0], "," + tail);
      assert [items[0]] + items[1..] == items;
    }
  }

  lemma MembersTextStart(members: seq<Member>)
    requires |members| > 0
    requires forall i :: 0 <= i < |members| ==> Plain(members[i].value)
    ensures MembersText(members) != ""
    ensures MembersText(members)[0] == '"'
  {
  }

  lemma QuoteThen(k: string, tail: string)
    ensures (Quote(k) + tail)[0] == '"'
    ensures (Quote(k) + tail)[1..] == EscapeAll(k) + "\"" + tail
  {
    assert Quote(k) + tail == "\"" + (EscapeAll(k) + "\"" + tail);
  }

  /** One member's text reads back as that member. */
  lemma {:induction false} ReadBackMember(m: Member, after: string)
    requires Plain(m.value) && Stops(after)
    decreases m, 0
    ensures ReadMember(MemberText(m) + after) == Some((m, after))
  {
    var val := Stringify(m.value);
    var r1 := ":" + (val + after);
    var s := Quote(m.key) + r1;
    MemberTextThen(m, after);
    assert ReadChars(s[1..]) == Some((m.key, r1)) by {
      QuoteThen(m.key, r1);
      ReadQuoted(m.key, r1);
    }
    assert ReadValue(r1[1..]) == Some((m.value, after)) by {
      assert r1[1..] == val + after;
      ReadBack(m.value, after);
    }
    QuoteThen(m.key, r1);
    ReadMemberSteps(s, m.key, r1, m.value, after);
  }

  lemma MemberTextThen(m: Member, after: string)
    requires !m.value.Undefined?
    ensures MemberText(m) + after == Quote(m.key) + (":" + (Stringify(m.value) + after))
  {
  }

  /** `ReadMember` unfolded: a quote, the key's characters, a colon and a value. */
  lemma ReadMemberSteps(s: string, key: string, r1: string, v: JsValue, after: string)
    requires |s| > 0 && s[0] == '"' && ReadChars(s[1..]) == Some((key, r1))
    requires |r1| > 0 && r1[0] == ':' && ReadValue(r1[1..]) == Some((v, after))
    ensures ReadMember(s) == Some((Member(key, v), after))
  {
  }

  /** For plain members the text is the members' texts joined with commas. */
  lemma MembersTextCons(members: seq<Member>)
    requires |members| > 0
    requires forall i :: 0 <= i < |members| ==> Plain(members[i].value)
    ensures Plain(members[0].value)
    ensures |members| == 1 ==> MembersText(members) == MemberText(members[0])
    ensures |members| > 1 ==> MembersText(members) == MemberText(members[0]) + "," + MembersText(members[1..])
  {
    if |members| > 1 {
      MembersTextStart(members[1..]);
    }
  }

  lemma {:induction false} ReadBackMembers(members: seq<Member>, rest: string)
    requires |members| > 0
    requires forall i :: 0 <= i < |members| ==> Plain(members[i].value)
    ensures ReadMembers(MembersText(members) + "}" + rest) == Some((members, rest))
    decreases members, 1
  {
    MembersTextCons(members);
    if |members| == 1 {
      ReadBackLastMember(members[0], rest);
      assert [members[0]] == members;
    } else {
      ReadBackMembers(members[1..], rest);
      ReadBackNextMember(members[0], members[1..], rest);
      assert [members[0]] + members[1..] == members;
    }
  }

  /** `ReadMembers` after its first member: a closing brace ends the
      members, a comma continues them. */
  lemma ReadMembersStep(s: string, m: Member, r: string)
    requires ReadMember(s) == Some((m, r)) && |r| > 0
    ensures r[0] == '}' ==> ReadMembers(s) == Some(([m], r[1..]))
    ensures r[0] == ',' && ReadMembers(r[1..]).Some? ==>
              ReadMembers(s) == Some(([m] + ReadMembers(r[1..]).value.0, ReadMembers(r[1..]).value.1))
  {
  }

  lemma {:induction false} ReadBackLastMember(m: Member, rest: string)
    requires Plain(m.value)
    ensures ReadMembers(MemberText(m) + "}" + rest) == Some(([m], rest))
    decreases m, 1
  {
    assert MemberText(m) + "}" + rest == MemberText(m) + ("}" + rest);
    ReadBackMember(m, "}" + rest);
    assert ("}" + rest)[1..] == rest;
    ReadMembersStep(MemberText(m) + ("}" + rest), m, "}" + rest);
  }

  lemma {:induction false} ReadBackNextMember(m: Member, more: seq<Member>, rest: string)
    requires Plain(m.value) && |more| > 0
    requires forall i :: 0 <= i < |more| ==> Plain(more[i].value)
    requires ReadMembers(MembersText(more) + "}" + rest) == Some((more, rest))
    ensures ReadMembers(MemberText(m) + "," + MembersText(more) + "}" + rest) == Some(([m] + more, rest))
    decreases m, 1
  {
    var tail := MembersText(more) + "}" + rest;
    assert MemberText(m) + "," + MembersText(more) + "}" + rest == MemberText(m) + ("," + tail);
    ReadBackMember(m, "," + tail);
    assert ("," + tail)[1..] == tail;
    ReadMembersStep(MemberText(m) + ("," + tail), m, "," + tail);
  }

  /** `JSON.stringify` loses nothing on values without `undefined` inside:
      reading its text back gives the value. */
  lemma RoundTrip(v: JsValue)
    requires Plain(v)
    ensures Read(Stringify(v)) == Some(v)
  {
    ReadBack(v, "");
    assert Stringify(v) + "" == Stringify(v);
  }
}

=== FILE: json_text.dfy ===
/** `JSON.stringify` on JavaScript values, as the handlers use it for the
    `grid` metadata entry and the stored provider payload. */
module JsonText {
  import opened JsValues
  import opened Numerals

  function HexDigit(d: nat): (c: char)
    requires d < 16
    ensures DigitOf(c) == d
  {
    if d < 10 then DigitChar(d) else ('a' as int + d - 10) as char
  }

  /** How `JSON.stringify` writes one character inside a string literal:
      quote and backslash escaped, the short escapes for the usual control
      characters, `\u00xx` in lower-case hex for the other control
      characters, every other character as itself. */
  function Escape(c: char): (r: string)
    ensures |r| >= 1
    ensures r[0] == '\\' <==> (c == '"' || c == '\\' || (c as int) < 0x20)
  {
    var n := c as int;
    if c == '"' then "\\\""
    else if c == '\\' then "\\\\"
    else if n == 0x08 then "\\b"
    else if n == 0x09 then "\\t"
    else if n == 0x0A then "\\n"
    else if n == 0x0C then "\\f"
    else if n == 0x0D then "\\r"
    else if n < 0x20 then "\\u00" + [HexDigit(n / 16), HexDigit(n % 16)]
    else [c]
  }

  function EscapeAll(s: string): string {
    if |s| == 0 then "" else Escape(s[0]) + EscapeAll(s[1..])
  }

  /** A JSON string literal. */
  function Quote(s: string): (r: string)
    ensures |r| >= 2 && r[0] == '"'
  {
    "\"" + EscapeAll(s) + "\""
  }

  /** `JSON.stringify(v)` for a value other than `undefined` (for which it
      returns `undefined`, not text). No white space is emitted; an
      `undefined` array element is written `null` and an object member
      whose value is `undefined` is left out. */
  function Stringify(v: JsValue): (r: string)
    requires !v.Undefined?
    ensures |r| > 0
    ensures r[0] != ']'
    decreases v
  {
    match v
    case Null => "null"
    case Bool(b) => if b then "true" else "false"
    case Num(n) => IntToDecimal(n)
    case Str(s) => Quote(s)
    case Arr(items) => "[" + ItemsText(items) + "]"
    case Obj(members) => "{" + MembersText(members) + "}"
  }

  /** The comma-separated elements of an array. */
  function ItemsText(items: seq<JsValue>): string
    decreases items
  {
    if |items| == 0 then ""
    else
      var first := if items[0].Undefined? then "null" else Stringify(items[0]);
      if |items| == 1 then first else first + "," + ItemsText(items[1..])
  }

  /** The comma-separated `"key":value` pairs of an object, skipping members
      whose value is `undefined`. */
  function MembersText(members: seq<Member>): string
    decreases members, 1
  {
    if |members| == 0 then ""
    else
      var rest := MembersText(members[1..]);
      if members[0].value.Undefined? then rest
      else
        var first := MemberText(members[0]);
        if rest == "" then first else first + "," + rest
  }

  /** One `"key":value` pair. */
  function MemberText(m: Member): (r: string)
    requires !m.value.Undefined?
    ensures |r| > 0 && r[0] == '"'
    decreases m, 0
  {
    Quote(m.key) + ":" + Stringify(m.value)
  }
}

=== FILE: numerals.dfy ===
/** Integer ↔ text conversions of JavaScript: `Number.prototype.toString`
    on integers, and the global `parseInt` with its radix left out. */
module Numerals {
  import opened Common
  import opened JsText

  predicate IsDigit(c: char) {
    '0' <= c <= '9'
  }

  predicate AllDigits(s: string) {
    forall i :: 0 <= i < |s| ==> IsDigit(s[i])
  }

  /** The value of a character as a digit in radices up to 36 ('0'..'9',
      then 'a'..'z' in either case); 36 for any other character. */
  function DigitOf(c: char): (d: nat)
    ensures d <= 36
    ensures IsDigit(c) <==> d < 10
  {
    if '0' <= c <= '9' then c as int - '0' as int
    else if 'a' <= c <= 'z' then c as int - 'a' as int + 10
    else if 'A' <= c <= 'Z' then c as int - 'A' as int + 10
    else 36
  }

  function DigitChar(d: nat): (c: char)
    requires d < 10
    ensures IsDigit(c) && DigitOf(c) == d
  {
    ('0' as int + d) as char
  }

  /** Length of the longest prefix of `s` made of digits of `radix`. */
  function Span(s: string, radix: nat): (k: nat)
    ensures k <= |s|
    ensures forall i :: 0 <= i < k ==> DigitOf(s[i]) < radix
    ensures k < |s| ==> DigitOf(s[k]) >= radix
  {
    if |s| > 0 && DigitOf(s[0]) < radix then 1 + Span(s[1..], radix) else 0
  }

  /** The number the digits `ds` denote in `radix`, most significant first. */
  function Value(ds: string, radix: nat): nat {
    if |ds| == 0 then 0
    else Value(ds[..|ds| - 1], radix) * radix + DigitOf(ds[|ds| - 1])
  }

  /** Decimal text of a natural number, without leading zeros. */
  function NatToDecimal(n: nat): (r: string)
    ensures |r| >= 1 && AllDigits(r)
  {
    if n < 10 then [DigitChar(n)]
    else NatToDecimal(n / 10) + [DigitChar(n % 10)]
  }

  /** `String(n)` for an integer-valued number: a minus sign for negatives,
      then the decimal digits. */
  function IntToDecimal(n: int): (r: string)
    ensures |r| >= 1
    ensures r[0] == '-' <==> n < 0
    ensures n < 0 ==> AllDigits(r[1..])
    ensures n >= 0 ==> AllDigits(r)
  {
    if n < 0 then "-" + NatToDecimal(-n) else NatToDecimal(n)
  }

  /** Reading the decimal text of `n` back gives `n`. */
  lemma {:induction false} DecimalValue(n: nat)
    ensures Value(NatToDecimal(n), 10) == n
  {
    if n >= 10 {
      var r := NatToDecimal(n);
      assert r[..|r| - 1] == NatToDecimal(n / 10);
      DecimalValue(n / 10);
    }
  }

  /** A run of digits followed by a non-digit: the digit span stops exactly at the run's end. */
  lemma {:induction false} SpanOfDigits(ds: string, rest: string)
    requires AllDigits(ds)
    requires rest == [] || !IsDigit(rest[0])
    ensures Span(ds + rest, 10) == |ds|
  {
    if |ds| > 0 {
      assert (ds + rest)[1..] == ds[1..] + rest;
      SpanOfDigits(ds[1..], rest);
    } else {
      assert ds + rest == rest;
    }
  }

  /** `parseInt(s)` with the radix omitted: leading white space is skipped, a
      sign is read, a "0x"/"0X" prefix switches to radix 16, and the longest
      run of digits is read. `None` is NaN (no digit at all). */
  function ParseInt(s: string): Option<int> {
    var t := TrimStart(s);
    var sign := if |t| > 0 && t[0] == '-' then -1 else 1;
    var (radix, w) := ParseBody(s);
    var k := Span(w, radix);
    if k == 0 then None else Some(sign * Value(w[..k], radix))
  }

  /** The radix `parseInt` settles on and the text after white space, sign
      and radix prefix. */
  function ParseBody(s: string): (r: (nat, string))
    ensures r.0 == 10 || r.0 == 16
  {
    var t := TrimStart(s);
    var u := if |t| > 0 && (t[0] == '-' || t[0] == '+') then t[1..] else t;
    if |u| >= 2 && u[0] == '0' && (u[1] == 'x' || u[1] == 'X') then (16, u[2..]) else (10, u)
  }

  /** `parseInt(String(n)) === n` for every integer-valued number printed in decimal. */
  lemma {:induction false} ParseIntOfDecimal(n: int)
    ensures ParseInt(IntToDecimal(n)) == Some(n)
  {
    var s := IntToDecimal(n);
    var m: nat := if n < 0 then -n else n;
    var ds := NatToDecimal(m);
    assert !IsSpace(s[0]);
    assert TrimStart(s) == s;
    var u := if n < 0 then s[1..] else s;
    assert u == ds;
    assert |u| >= 2 ==> IsDigit(u[1]);
    assert ParseBody(s) == (10, ds);
    SpanOfDigits(ds, []);
    assert ds + [] == ds;
    assert ds[..|ds|] == ds;
    DecimalValue(m);
  }
}

=== FILE: print_order.dfy ===
/** `POST /api/submit-gelato-order`: validates the order fields in a fixed
    order, builds the print provider's order (splitting the customer's name
    at the first space) and maps the provider's answer to a response. */
module PrintOrder {
  import opened Common
  import opened JsValues
  import opened JsText

  datatype OrderRequest = OrderRequest(httpMethod: string, body: JsValue)

  /** The provider's `recipient` object. Address fields and the email are
      whatever JSON values the request held. */
  datatype Recipient = Recipient(
    addressLine1: JsValue,
    addressCity: JsValue,
    addressCountryCode: JsValue,
    addressPostalCode: JsValue,
    addressState: JsValue,
    firstName: string,
    lastName: string,
    email: JsValue)

  datatype OrderItem = OrderItem(productUid: JsValue, fileUrls: seq<JsValue>)

  datatype GelatoOrder = GelatoOrder(recipient: Recipient, items: seq<OrderItem>)

  /** The outbound order call: endpoint, authorization header and payload. */
  datatype OrderCall = OrderCall(url: string, authorization: string, order: GelatoOrder)

  datatype OrderBody =
    | OrderError(error: string)
    | OrderFailure(error: string, details: JsValue)
    | OrderSubmitted(gelatoOrderId: JsValue)

  datatype OrderOutcome = OrderOutcome(response: Response<OrderBody>, calls: seq<OrderCall>)

  const GelatoOrdersUrl: string := "https://api.gelato.com/v2/orders"

  /** Stands for the message of a `TypeError` the runtime throws (reading a
      property of `undefined`, calling `split` on a non-string); its wording
      is the engine's. */
  const TypeErrorText: string := "TypeError"

  /** `name.split(" ")[0] || "Customer"`: the text before the first space,
      or the placeholder when that text is empty. */
  function FirstName(name: string): (r: string)
    ensures var i := IndexOf(name, ' ');
            r == if i == 0 then "Customer" else name[..i]
  {
    SplitAtFirst(name, ' ');
    var first := Split(name, ' ')[0];
    if first == "" then "Customer" else first
  }

  /** `name.split(" ").slice(1).join(" ") || "-"`: everything after the
      first space, or the placeholder when that is empty. */
  function LastName(name: string): (r: string)
    ensures var i := IndexOf(name, ' ');
            r == if i + 1 < |name| then name[i + 1..] else "-"
  {
    SplitAtFirst(name, ' ');
    var rest := Join(Split(name, ' ')[1..], ' ');
    if rest == "" then "-" else rest
  }

  /** When neither placeholder is used, first and last name joined by a
      space give back the full name. */
  lemma NameSplitRejoins(name: string)
    requires 0 < IndexOf(name, ' ') && IndexOf(name, ' ') + 1 < |name|
    ensures FirstName(name) + " " + LastName(name) == name
  {
    var i := IndexOf(name, ' ');
    var first, last := FirstName(name), LastName(name);
    assert first == name[..i] && last == name[i + 1..];
    SplitAround(name, i);
  }

  lemma SplitAround(s: string, i: nat)
    requires i < |s| && s[i] == ' '
    ensures s[..i] + " " + s[i + 1..] == s
  {
    assert [s[i]] == " ";
    assert s == s[..i] + [s[i]] + s[i + 1..];
  }

  /** The first name never holds a space and is never empty. */
  lemma FirstNameIsOneWord(name: string)
    ensures FirstName(name) != "" && ' ' !in FirstName(name)
  {
  }

  /** The payload built from the validated fields. */
  function BuildOrder(name: string, email: JsValue, address: JsValue, imageUrl: JsValue, productUid: JsValue): (r: GelatoOrder)
    ensures |r.items| == 1 && r.items[0].productUid == productUid && r.items[0].fileUrls == [imageUrl]
    ensures r.recipient.addressLine1 == Get(address, "line1")
    ensures r.recipient.addressCity == Get(address, "city")
    ensures r.recipient.addressCountryCode == Get(address, "country")
    ensures r.recipient.addressPostalCode == Get(address, "postal_code")
    ensures r.recipient.addressState == Get(address, "state")
    ensures r.recipient.email == email
    ensures r.recipient.firstName == FirstName(name) && r.recipient.lastName == LastName(name)
  {
    GelatoOrder(
      Recipient(
        Get(address, "line1"), Get(address, "city"), Get(address, "country"),
        Get(address, "postal_code"), Get(address, "state"),
        FirstName(name), LastName(name), email),
      [OrderItem(productUid, [imageUrl])])
  }

  /** All four required fields are truthy. */
  predicate HasRequiredFields(body: JsValue) {
    Truthy(Get(body, "name")) && Truthy(Get(body, "email"))
    && Truthy(Get(body, "imageUrl")) && Truthy(Get(body, "productUid"))
  }

  /** The address is truthy and so is its `line1`; nothing else in it is checked. */
  predicate HasAddress(body: JsValue) {
    Truthy(Get(body, "address")) && Truthy(Get(Get(body, "address"), "line1"))
  }

  /** The requests that reach the provider call. */
  predicate Submittable(req: OrderRequest) {
    && req.httpMethod == Post
    && !req.body.Undefined? && !req.body.Null?
    && HasRequiredFields(req.body)
    && HasAddress(req.body)
    && Get(req.body, "name").Str?
  }

  /** The response to the provider's answer to the order call. */
  function ReplyResponse(reply: FetchReply<JsValue>): (r: Response<OrderBody>)
    ensures r.status == 200 <==> reply.Replied? && IsOk(reply.status) && !reply.body.Undefined? && !reply.body.Null?
    ensures r.status != 200 ==> r.status == 500
    ensures r.status == 200 ==> r.body == OrderSubmitted(Get(reply.body, "id"))
    ensures reply.Replied? && !IsOk(reply.status) ==>
              r.body == OrderFailure("Failed to submit order to Gelato", reply.body)
  {
    match reply
    case Threw(message) => Response(500, OrderFailure("Internal Server Error", Str(message)))
    case Replied(status, result) =>
      if !IsOk(status) then Response(500, OrderFailure("Failed to submit order to Gelato", result))
      else if result.Undefined? || result.Null? then Response(500, OrderFailure("Internal Server Error", Str(TypeErrorText)))
      else Response(200, OrderSubmitted(Get(result, "id")))
  }

  /** The handler. `apiKey` is `GELATO_API_KEY`; `reply` is the provider's
      answer (its parsed JSON body), or the error thrown by the call or by
      reading the body, if the call is made. */
  function HandleOrder(req: OrderRequest, apiKey: string, reply: FetchReply<JsValue>): (r: OrderOutcome)
    ensures req.httpMethod != Post ==> r == OrderOutcome(Response(405, OrderError("Method Not Allowed")), [])
    ensures req.httpMethod == Post && (req.body.Undefined? || req.body.Null?) ==>
              r == OrderOutcome(Response(500, OrderFailure("Internal Server Error", Str(TypeErrorText))), [])
    ensures req.httpMethod == Post && !req.body.Undefined? && !req.body.Null? && !HasRequiredFields(req.body) ==>
              r == OrderOutcome(Response(400, OrderError("Missing required fields")), [])
    ensures req.httpMethod == Post && !req.body.Undefined? && !req.body.Null? && HasRequiredFields(req.body)
            && !HasAddress(req.body) ==>
              r == OrderOutcome(Response(400, OrderError("Missing or invalid address from Stripe")), [])
    ensures |r.calls| <= 1
    ensures |r.calls| == 1 <==> Submittable(req)
    ensures Submittable(req) ==>
              var b := req.body;
              && r.calls[0] == OrderCall(GelatoOrdersUrl, "Bearer " + apiKey,
                                         BuildOrder(Get(b, "name").s, Get(b, "email"), Get(b, "address"),
                                                    Get(b, "imageUrl"), Get(b, "productUid")))
              && r.response == ReplyResponse(reply)
    ensures r.response.status == 200 ==> Submittable(req)
  {
    if req.httpMethod != Post then OrderOutcome(Response(405, OrderError("Method Not Allowed")), [])
    else if req.body.Undefined? || req.body.Null? then
      OrderOutcome(Response(500, OrderFailure("Internal Server Error", Str(TypeErrorText))), [])
    else
      var b := req.body;
      var name, email, address := Get(b, "name"), Get(b, "email"), Get(b, "address");
      var imageUrl, productUid := Get(b, "imageUrl"), Get(b, "productUid");
      if !Truthy(name) || !Truthy(email) || !Truthy(imageUrl) || !Truthy(productUid) then
        OrderOutcome(Response(400, OrderError("Missing required fields")), [])
      else if !Truthy(address) || !Truthy(Get(address, "line1")) then
        OrderOutcome(Response(400, OrderError("Missing or invalid address from Stripe")), [])
      else if !name.Str? then
        OrderOutcome(Response(500, OrderFailure("Internal Server Error", Str(TypeErrorText))), [])
      else
        var order := BuildOrder(name.s, email, address, imageUrl, productUid);
        OrderOutcome(ReplyResponse(reply), [OrderCall(GelatoOrdersUrl, "Bearer " + apiKey, order)])
  }
}

=== FILE: purchases.dfy ===
/** The `purchases` table both recording paths write and redemption reads,
    the access codes stored in it, and the normalisation redemption applies
    to its lookup key. */
module Purchases {
  import opened JsValues
  import opened JsText

  /** A character of the alphabet `nanoid` draws from: ASCII letters,
      digits, `_` and `-`. */
  predicate UrlChar(c: char) {
    ('A' <= c <= 'Z') || ('a' <= c <= 'z') || ('0' <= c <= '9') || c == '_' || c == '-'
  }

  /** What `nanoid(6)` may return: six characters of its alphabet. Which one
      it returns is random, so it is a parameter wherever a code is made. */
  type NanoId = s: string | |s| == 6 && forall i :: 0 <= i < |s| ==> UrlChar(s[i])
    witness "AAAAAA"

  /** A character an access code may hold: the alphabet with its lower-case
      letters upper-cased. */
  predicate CodeChar(c: char) {
    ('A' <= c <= 'Z') || ('0' <= c <= '9') || c == '_' || c == '-'
  }

  /** `nanoid(6).toUpperCase()`. */
  function MakeCode(id: NanoId): (code: string)
    ensures |code| == 6 && HasNoLower(code)
    ensures forall i :: 0 <= i < 6 ==> CodeChar(code[i])
    ensures forall i :: 0 <= i < 6 ==> LowerChar(code[i]) == LowerChar(id[i])
  {
    ToUpper(id)
  }

  /** One row of `purchases`. `stripeData` is the JSON value stored in the
      `stripe_data` column. */
  datatype Row = Row(code: string, email: string, pdfUrl: string, projectName: string, stripeData: JsValue)

  /** The argument object handed to the thank-you mail. */
  datatype Notification = Notification(email: string, code: string, pdfUrl: string, projectName: string, stripeData: JsValue)

  /** The outcome of one insert into the table. */
  datatype DbResult = DbOk | DbError(message: string)

  /** The outcome of sending the thank-you mail. */
  datatype MailResult = Sent | MailFailed(message: string)

  /** The warning both recording paths return when the mail fails. */
  const MailWarning: string := "Purchase saved, but email failed to send."

  /** An email in the form redemption looks emails up in: no upper-case
      letter and no white space at either end. */
  predicate NormalEmail(email: string) {
    HasNoUpper(email) && (email == [] || (!IsSpace(email[0]) && !IsSpace(email[|email| - 1])))
  }

  /** A code in the form redemption looks codes up in: no lower-case letter
      and no white space at either end. */
  predicate NormalCode(code: string) {
    HasNoLower(code) && (code == [] || (!IsSpace(code[0]) && !IsSpace(code[|code| - 1])))
  }

  /** The email as redemption looks it up: trimmed and lower-cased. */
  function NormalizeEmail(email: string): (r: string)
    ensures exists i, j :: 0 <= i <= j <= |email| && AllSpace(email[..i]) && AllSpace(email[j..])
                           && r == ToLower(email[i..j])
    ensures |r| <= |email| && NormalEmail(r)
  {
    TrimLower(email);
    ToLower(Trim(email))
  }

  /** The code as redemption looks it up: trimmed and upper-cased. */
  function NormalizeCode(code: string): (r: string)
    ensures exists i, j :: 0 <= i <= j <= |code| && AllSpace(code[..i]) && AllSpace(code[j..])
                           && r == ToUpper(code[i..j])
    ensures |r| <= |code| && NormalCode(r)
  {
    TrimUpper(code);
    ToUpper(Trim(code))
  }

  /** Normalising twice is normalising once. */
  lemma {:induction false} NormalizeIdempotent(email: string, code: string)
    ensures NormalizeEmail(NormalizeEmail(email)) == NormalizeEmail(email)
    ensures NormalizeCode(NormalizeCode(code)) == NormalizeCode(code)
  {
    var e := Trim(email);
    TrimLower(e);
    TrimIdempotent(email);
    CaseMappingsAbsorb(e);
    var c := Trim(code);
    TrimUpper(c);
    TrimIdempotent(code);
    CaseMappingsAbsorb(c);
  }

  /** Surrounding white space and letter case make no difference to the
      normalised email: two inputs whose trimmed cores agree up to case
      normalise alike. */
  lemma {:induction false} NormalizeEmailIgnores(a1: string, s1: string, b1: string, a2: string, s2: string, b2: string)
    requires AllSpace(a1) && AllSpace(b1) && AllSpace(a2) && AllSpace(b2)
    requires ToLower(s1) == ToLower(s2)
    ensures NormalizeEmail(a1 + s1 + b1) == NormalizeEmail(a2 + s2 + b2)
  {
    TrimIgnoresPadding(a1, s1, b1);
    TrimIgnoresPadding(a2, s2, b2);
    TrimLower(s1);
    TrimLower(s2);
  }

  /** The same for the normalised code. */
  lemma {:induction false} NormalizeCodeIgnores(a1: string, s1: string, b1: string, a2: string, s2: string, b2: string)
    requires AllSpace(a1) && AllSpace(b1) && AllSpace(a2) && AllSpace(b2)
    requires ToLower(s1) == ToLower(s2)
    ensures NormalizeCode(a1 + s1 + b1) == NormalizeCode(a2 + s2 + b2)
  {
    TrimIgnoresPadding(a1, s1, b1);
    TrimIgnoresPadding(a2, s2, b2);
    TrimUpper(s1);
    TrimUpper(s2);
    CaseMappingsAbsorb(s1);
    CaseMappingsAbsorb(s2);
    assert ToUpper(ToLower(s1)) == ToUpper(ToLower(s2));
  }

  /** An email already in normal form is its own lookup key. With
      `NormalizeEmailIgnores` this fixes the key of every email. */
  lemma {:induction false} NormalizeEmailFixes(email: string)
    requires NormalEmail(email)
    ensures NormalizeEmail(email) == email
  {
    assert TrimStart(email) == email;
    assert TrimEnd(email) == email;
    assert ToLower(email) == email;
  }

  /** The same for a code in normal form. */
  lemma {:induction false} NormalizeCodeFixes(code: string)
    requires NormalCode(code)
    ensures NormalizeCode(code) == code
  {
    assert TrimStart(code) == code;
    assert TrimEnd(code) == code;
    assert ToUpper(code) == code;
  }

  /** A generated code is already in the form redemption looks codes up in. */
  lemma {:induction false} CodeIsNormal(id: NanoId)
    ensures NormalizeCode(MakeCode(id)) == MakeCode(id)
  {
    var code := MakeCode(id);
    assert code == [] || !IsSpace(code[0]);
    assert TrimStart(code) == code;
    assert TrimEnd(code) == code by {
      assert !IsSpace(code[5]);
    }
    CaseMappingsAbsorb(id);
  }
}

=== FILE: record_purchase_api.dfy ===
/** `POST /api/record-purchase`: the HTTP form of purchase recording. Unlike
    the library function it stores the provider payload as received and
    answers with status codes instead of throwing. */
module RecordApi {
  import opened Common
  import opened JsValues
  import opened JsText
  import opened Purchases

  /** The request method and the body fields the handler destructures. */
  datatype RecordRequest = RecordRequest(
    httpMethod: string,
    email: Option<string>,
    pdfUrl: Option<string>,
    projectName: Option<string>,
    stripeData: JsValue)

  datatype RecordBody = RecordError(error: string) | RecordCode(code: string, warning: Option<string>)

  /** The response, the insert calls made (at most one), the table
      afterwards and the mails sent. */
  datatype RecordOutcome = RecordOutcome(response: Response<RecordBody>, inserts: seq<Row>, table: seq<Row>, mails: seq<Notification>)

  /** All three required fields are truthy. */
  predicate Complete(req: RecordRequest) {
    Filled(req.email) && Filled(req.pdfUrl) && Filled(req.projectName)
  }

  /** The steps after validation, shared by the handler as written and the
      corrected one: insert `row`, then mail `mailTo`, the address as
      received. */
  function InsertThenMail(row: Row, mailTo: string, stripeData: JsValue, table: seq<Row>, db: DbResult, mail: MailResult): (r: RecordOutcome)
    ensures r.inserts == [row]
    ensures db.DbError? ==> r == RecordOutcome(Response(500, RecordError("Database error")), [row], table, [])
    ensures db.DbOk? ==> r.table == table + [row]
    ensures db.DbOk? ==> r.mails == [Notification(mailTo, row.code, row.pdfUrl, row.projectName, stripeData)]
    ensures db.DbOk? && mail.Sent? ==> r.response == Response(200, RecordCode(row.code, None))
    ensures db.DbOk? && mail.MailFailed? ==> r.response == Response(200, RecordCode(row.code, Some(MailWarning)))
  {
    match db
    case DbError(_) => RecordOutcome(Response(500, RecordError("Database error")), [row], table, [])
    case DbOk =>
      var note := Notification(mailTo, row.code, row.pdfUrl, row.projectName, stripeData);
      var body := if mail.MailFailed? then RecordCode(row.code, Some(MailWarning)) else RecordCode(row.code, None);
      RecordOutcome(Response(200, body), [row], table + [row], [note])
  }

  /** The handler as written: the row keeps the email exactly as received
      and the payload as the JSON value it arrived as. `id` is what
      `nanoid(6)` returns. */
  function HandleRecord(req: RecordRequest, table: seq<Row>, id: NanoId, db: DbResult, mail: MailResult): (r: RecordOutcome)
    ensures req.httpMethod != Post ==> r == RecordOutcome(Response(405, RecordError("Method not allowed")), [], table, [])
    ensures req.httpMethod == Post && !Complete(req) ==>
              r == RecordOutcome(Response(400, RecordError("Missing required fields")), [], table, [])
    ensures |r.inserts| <= 1
    ensures |r.inserts| == 1 <==> req.httpMethod == Post && Complete(req)
    ensures |r.inserts| == 1 ==>
              r.inserts[0] == Row(MakeCode(id), req.email.value, req.pdfUrl.value, req.projectName.value, req.stripeData)
    ensures r.table == table + (if |r.inserts| == 1 && db.DbOk? then r.inserts else [])
    ensures r.response.status == 200 <==> |r.inserts| == 1 && db.DbOk?
    ensures r.response.status == 200 ==>
              && r.response.body.RecordCode? && r.response.body.code == r.inserts[0].code
              && |r.response.body.code| == 6 && HasNoLower(r.response.body.code)
              && (r.response.body.warning.Some? <==> mail.MailFailed?)
    ensures |r.inserts| == 1 && db.DbOk? ==>
              r.mails == [Notification(req.email.value, MakeCode(id), req.pdfUrl.value, req.projectName.value, req.stripeData)]
  {
    if req.httpMethod != Post then RecordOutcome(Response(405, RecordError("Method not allowed")), [], table, [])
    else if !Complete(req) then RecordOutcome(Response(400, RecordError("Missing required fields")), [], table, [])
    else
      var row := Row(MakeCode(id), req.email.value, req.pdfUrl.value, req.projectName.value, req.stripeData);
      InsertThenMail(row, req.email.value, req.stripeData, table, db, mail)
  }

  /** The handler with the row's email stored in the form redemption looks
      it up in (trimmed and lower-cased); everything else, the thank-you
      mail's address included, is as written. */
  function HandleRecordCorrected(req: RecordRequest, table: seq<Row>, id: NanoId, db: DbResult, mail: MailResult): (r: RecordOutcome)
    ensures req.httpMethod != Post ==> r == RecordOutcome(Response(405, RecordError("Method not allowed")), [], table, [])
    ensures req.httpMethod == Post && !Complete(req) ==>
              r == RecordOutcome(Response(400, RecordError("Missing required fields")), [], table, [])
    ensures |r.inserts| <= 1
    ensures |r.inserts| == 1 <==> req.httpMethod == Post && Complete(req)
    ensures |r.inserts| == 1 ==>
              r.inserts[0] == Row(MakeCode(id), NormalizeEmail(req.email.value), req.pdfUrl.value, req.projectName.value, req.stripeData)
    ensures r.table == table + (if |r.inserts| == 1 && db.DbOk? then r.inserts else [])
    ensures r.response.status == 200 <==> |r.inserts| == 1 && db.DbOk?
    ensures r.response.status == 200 ==> r.response.body.RecordCode? && r.response.body.code == r.inserts[0].code
    ensures |r.inserts| == 1 && db.DbOk? ==>
              r.mails == [Notification(req.email.value, MakeCode(id), req.pdfUrl.value, req.projectName.value, req.stripeData)]
  {
    if req.httpMethod != Post then RecordOutcome(Response(405, RecordError("Method not allowed")), [], table, [])
    else if !Complete(req) then RecordOutcome(Response(400, RecordError("Missing required fields")), [], table, [])
    else
      var row := Row(MakeCode(id), NormalizeEmail(req.email.value), req.pdfUrl.value, req.projectName.value, req.stripeData);
      InsertThenMail(row, req.email.value, req.stripeData, table, db, mail)
  }

  /** The response body as JSON, the way a caller of the endpoint reads it. */
  function BodyJson(body: RecordBody): (r: JsValue)
    ensures r.Obj?
    ensures body.RecordCode? ==> Get(r, "code") == Str(body.code)
    ensures body.RecordError? ==> Get(r, "code") == Undefined
  {
    match body
    case RecordError(error) => Obj([Member("error", Str(error))])
    case RecordCode(code, None) => Obj([Member("code", Str(code))])
    case RecordCode(code, Some(warning)) =>
      var members := [Member("code", Str(code)), Member("warning", Str(warning))];
      assert members[..1] == [Member("code", Str(code))];
      assert members[1].key != "code" by { assert members[1].key[0] != "code"[0]; }
      assert LastValue(members, "code") == LastValue(members[..1], "code");
      Obj(members)
  }
}

=== FILE: record_purchase_lib.dfy ===
/** `recordPurchase` in lib/recordPurchase.ts: validates the purchase,
    generates an access code, inserts one row with the provider payload as
    JSON text, then sends the thank-you mail, turning a mail failure into a
    warning. */
module RecordLib {
  import opened Common
  import opened JsValues
  import opened JsText
  import opened JsonText
  import opened JsonRead
  import opened Purchases

  /** The argument object; `stripeData` may be left out (`Undefined`). */
  datatype PurchaseInput = PurchaseInput(
    email: Option<string>,
    pdfUrl: Option<string>,
    projectName: Option<string>,
    stripeData: JsValue)

  /** How the call ends: a thrown error, or the resolved `{code}` /
      `{code, warning}` object. */
  datatype LibResult = LibThrew(message: string) | LibRecorded(code: string, warning: Option<string>)

  /** The result, the insert calls made (at most one), the table afterwards
      and the mails sent. */
  datatype LibOutcome = LibOutcome(result: LibResult, inserts: seq<Row>, table: seq<Row>, mails: seq<Notification>)

  /** `JSON.stringify(stripeData ?? {})`: an absent or null payload is
      stored as an empty object. */
  function StripeDataText(stripeData: JsValue): (r: string)
    ensures |r| > 0
    ensures stripeData.Undefined? || stripeData.Null? ==> r == "{}"
  {
    var data := if stripeData.Undefined? || stripeData.Null? then Obj([]) else stripeData;
    assert MembersText([]) == "";
    Stringify(data)
  }

  /** The stored text holds the payload: reading it back gives the payload
      itself, or the empty object when there was none. */
  lemma StripeDataReadsBack(stripeData: JsValue)
    requires stripeData.Undefined? || Plain(stripeData)
    ensures stripeData.Undefined? || stripeData.Null? ==> Read(StripeDataText(stripeData)) == Some(Obj([]))
    ensures !stripeData.Undefined? && !stripeData.Null? ==> Read(StripeDataText(stripeData)) == Some(stripeData)
  {
    if stripeData.Undefined? || stripeData.Null? {
      RoundTrip(Obj([]));
    } else {
      RoundTrip(stripeData);
    }
  }

  /** The call. `id` is what `nanoid(6)` returns, `db` the insert's outcome
      and `mail` the thank-you mail's. */
  function RecordPurchase(input: PurchaseInput, table: seq<Row>, id: NanoId, db: DbResult, mail: MailResult): (r: LibOutcome)
    ensures !(Filled(input.email) && Filled(input.pdfUrl) && Filled(input.projectName)) ==>
              r == LibOutcome(LibThrew("Missing one or more required fields"), [], table, [])
    ensures |r.inserts| <= 1 && |r.mails| <= 1
    ensures |r.inserts| == 1 <==> Filled(input.email) && Filled(input.pdfUrl) && Filled(input.projectName)
    ensures |r.inserts| == 1 ==>
              var row := r.inserts[0];
              && row.code == MakeCode(id)
              && row.email == input.email.value && row.pdfUrl == input.pdfUrl.value
              && row.projectName == input.projectName.value
              && row.stripeData == Str(StripeDataText(input.stripeData))
    ensures r.table == table + (if |r.inserts| == 1 && db.DbOk? then r.inserts else [])
    ensures |r.inserts| == 1 && db.DbError? ==> r.result == LibThrew("Database error") && r.mails == []
    ensures |r.mails| == 1 <==> |r.inserts| == 1 && db.DbOk?
    ensures r.result.LibRecorded? <==> |r.mails| == 1
    ensures r.result.LibRecorded? ==>
              && r.result.code == r.inserts[0].code
              && |r.result.code| == 6 && HasNoLower(r.result.code)
              && (r.result.warning.Some? <==> mail.MailFailed?)
              && (mail.MailFailed? ==> r.result.warning == Some(MailWarning))
  {
    if !Filled(input.email) || !Filled(input.pdfUrl) || !Filled(input.projectName) then
      LibOutcome(LibThrew("Missing one or more required fields"), [], table, [])
    else
      var email, pdfUrl, projectName := input.email.value, input.pdfUrl.value, input.projectName.value;
      var code := MakeCode(id);
      var row := Row(code, email, pdfUrl, projectName, Str(StripeDataText(input.stripeData)));
      match db
      case DbError(_) => LibOutcome(LibThrew("Database error"), [row], table, [])
      case DbOk =>
        var note := Notification(email, code, pdfUrl, projectName, input.stripeData);
        var warning := if mail.MailFailed? then Some(MailWarning) else None;
        LibOutcome(LibRecorded(code, warning), [row], table + [row], [note])
  }

  /** A failed mail never undoes the insert: the table and the code are the
      same whether the mail went out or not. */
  lemma MailFailureKeepsRow(input: PurchaseInput, table: seq<Row>, id: NanoId, message: string)
    ensures RecordPurchase(input, table, id, DbOk, MailFailed(message)).table == RecordPurchase(input, table, id, DbOk, Sent).table
    ensures RecordPurchase(input, table, id, DbOk, MailFailed(message)).inserts == RecordPurchase(input, table, id, DbOk, Sent).inserts
  {
  }
}

=== FILE: redeem.dfy ===
/** `POST /api/redeem-code`: normalises the email and the code, looks the
    pair up in `purchases` expecting exactly one row, and answers with that
    row's download link or one uniform "Not found". */
module Redeem {
  import opened Common
  import opened JsText
  import opened Purchases

  datatype RedeemRequest = RedeemRequest(httpMethod: string, email: Option<string>, code: Option<string>)

  /** The lookup key: the two column values matched by equality. */
  datatype Query = Query(email: string, code: string)

  datatype RedeemBody = NoContent | RedeemError(error: string) | Download(pdfUrl: string)

  /** The response and the lookups made (at most one). */
  datatype RedeemOutcome = RedeemOutcome(response: Response<RedeemBody>, queries: seq<Query>)

  predicate Matches(row: Row, q: Query) {
    row.email == q.email && row.code == q.code
  }

  /** The rows the two `.eq` filters keep, in table order. */
  function Matching(table: seq<Row>, q: Query): (r: seq<Row>)
    ensures |r| <= |table|
    ensures forall i :: 0 <= i < |r| ==> Matches(r[i], q) && r[i] in table
    ensures forall i :: 0 <= i < |table| && Matches(table[i], q) ==> table[i] in r
  {
    if |table| == 0 then []
    else
      var rest := Matching(table[1..], q);
      assert forall i :: 1 <= i < |table| ==> table[i] == table[1..][i - 1];
      if Matches(table[0], q) then [table[0]] + rest else rest
  }

  /** The handler. `queryFails` is a database error on the lookup. */
  function HandleRedeem(req: RedeemRequest, table: seq<Row>, queryFails: bool): (r: RedeemOutcome)
    ensures req.httpMethod != Post ==> r == RedeemOutcome(Response(405, NoContent), [])
    ensures req.httpMethod == Post && !(Filled(req.email) && Filled(req.code)) ==>
              r == RedeemOutcome(Response(400, RedeemError("Missing email or code")), [])
    ensures req.httpMethod == Post && Filled(req.email) && Filled(req.code) ==>
              r.queries == [Query(NormalizeEmail(req.email.value), NormalizeCode(req.code.value))]
    ensures |r.queries| <= 1
    ensures |r.queries| == 1 ==>
              var m := Matching(table, r.queries[0]);
              if !queryFails && |m| == 1 then r.response == Response(200, Download(m[0].pdfUrl))
              else r.response == Response(404, RedeemError("Not found"))
    ensures r.response.status == 200 ==>
              exists i :: 0 <= i < |table| && Matches(table[i], r.queries[0])
                          && r.response.body == Download(table[i].pdfUrl)
  {
    if req.httpMethod != Post then RedeemOutcome(Response(405, NoContent), [])
    else if !Filled(req.email) || !Filled(req.code) then
      RedeemOutcome(Response(400, RedeemError("Missing email or code")), [])
    else
      var q := Query(NormalizeEmail(req.email.value), NormalizeCode(req.code.value));
      var m := Matching(table, q);
      if queryFails || |m| != 1 then RedeemOutcome(Response(404, RedeemError("Not found")), [q])
      else RedeemOutcome(Response(200, Download(m[0].pdfUrl)), [q])
  }

  /** A request whose email and code differ from another's only in
      surrounding white space and letter case gets the same answer. */
  lemma {:induction false} RedeemIgnoresPaddingAndCase(
    httpMethod: string, table: seq<Row>, queryFails: bool,
    ea1: string, e1: string, eb1: string, ea2: string, e2: string, eb2: string,
    ca1: string, c1: string, cb1: string, ca2: string, c2: string, cb2: string)
    requires AllSpace(ea1) && AllSpace(eb1) && AllSpace(ea2) && AllSpace(eb2)
    requires AllSpace(ca1) && AllSpace(cb1) && AllSpace(ca2) && AllSpace(cb2)
    requires ToLower(e1) == ToLower(e2) && ToLower(c1) == ToLower(c2)
    requires e1 != "" && c1 != ""
    ensures HandleRedeem(RedeemRequest(httpMethod, Some(ea1 + e1 + eb1), Some(ca1 + c1 + cb1)), table, queryFails)
         == HandleRedeem(RedeemRequest(httpMethod, Some(ea2 + e2 + eb2), Some(ca2 + c2 + cb2)), table, queryFails)
  {
    var email1, code1 := ea1 + e1 + eb1, ca1 + c1 + cb1;
    var email2, code2 := ea2 + e2 + eb2, ca2 + c2 + cb2;
    assert |e2| == |ToLower(e2)| == |ToLower(e1)| == |e1|;
    assert |c2| == |ToLower(c2)| == |ToLower(c1)| == |c1|;
    NormalizeEmailIgnores(ea1, e1, eb1, ea2, e2, eb2);
    NormalizeCodeIgnores(ca1, c1, cb1, ca2, c2, cb2);
    assert email1 != "" && code1 != "" && email2 != "" && code2 != "";
    SameKeySameAnswer(httpMethod, table, queryFails, email1, code1, email2, code2);
  }

  /** The answer depends on the email and the code only through their
      normalised forms. */
  lemma SameKeySameAnswer(httpMethod: string, table: seq<Row>, queryFails: bool,
                          email1: string, code1: string, email2: string, code2: string)
    requires email1 != "" && code1 != "" && email2 != "" && code2 != ""
    requires NormalizeEmail(email1) == NormalizeEmail(email2) && NormalizeCode(code1) == NormalizeCode(code2)
    ensures HandleRedeem(RedeemRequest(httpMethod, Some(email1), Some(code1)), table, queryFails)
         == HandleRedeem(RedeemRequest(httpMethod, Some(email2), Some(code2)), table, queryFails)
  {
  }

  /** Every miss looks the same: a wrong email, a wrong code, a duplicate
      and a failed query all give one and the same response. */
  lemma MissesAreIndistinguishable(req1: RedeemRequest, req2: RedeemRequest, table: seq<Row>, fails1: bool, fails2: bool)
    requires req1.httpMethod == Post && Filled(req1.email) && Filled(req1.code)
    requires req2.httpMethod == Post && Filled(req2.email) && Filled(req2.code)
    requires fails1 || |Matching(table, Query(NormalizeEmail(req1.email.value), NormalizeCode(req1.code.value)))| != 1
    requires fails2 || |Matching(table, Query(NormalizeEmail(req2.email.value), NormalizeCode(req2.code.value)))| != 1
    ensures HandleRedeem(req1, table, fails1).response == HandleRedeem(req2, table, fails2).response
  {
  }
}

=== FILE: session_lookup.dfy ===
/** `GET /api/get-stripe-session`: the thank-you page's fallback. It fetches
    the checkout session, reads the purchase details from its metadata and
    always asks `/api/record-purchase` to record them, then returns the
    metadata with the access code it got back. */
module SessionLookup {
  import opened Common
  import opened JsValues
  import opened RecordApi

  /** `req.query.session_id`: one value, or several when the parameter is
      repeated in the URL. */
  datatype QueryParam = Single(value: string) | Repeated(values: seq<string>)

  /** The fields of a retrieved checkout session the handler uses:
      `metadata` (possibly null), the email the customer paid with, and the
      whole session as JSON, forwarded as the purchase's provider payload. */
  datatype CheckoutSession = CheckoutSession(metadata: Option<map<string, string>>, customerEmail: Option<string>, payload: JsValue)

  /** The outcome of `sessions.retrieve`. */
  datatype Retrieval = Retrieved(session: CheckoutSession) | RetrieveFailed(message: string)

  /** The outbound recording request: its URL and the body it carries. */
  datatype RecordCall = RecordCall(url: string, request: RecordRequest)

  datatype LookupBody =
    | LookupError(error: string)
    | Found(metadata: map<string, string>, pdfUrl: Option<string>, code: JsValue)

  /** The response, the sessions retrieved, the recording requests made and
      whether the missing-`pdfUrl` warning was logged. */
  datatype LookupOutcome = LookupOutcome(
    response: Response<LookupBody>,
    retrievals: seq<string>,
    recordCalls: seq<RecordCall>,
    warnedNoPdf: bool)

  /** `!session_id || typeof session_id !== 'string'` is false. */
  predicate ValidSessionId(sessionId: Option<QueryParam>) {
    sessionId.Some? && sessionId.value.Single? && sessionId.value.value != ""
  }

  /** `session.metadata || {}`. */
  function MetadataOf(session: CheckoutSession): (r: map<string, string>)
    ensures session.metadata.None? ==> r == map[]
    ensures session.metadata.Some? ==> r == session.metadata.value
  {
    if session.metadata.Some? then session.metadata.value else map[]
  }

  /** The body the handler posts, as written: every purchase detail comes
      from the metadata, the email included. Fields the metadata lacks are
      `undefined` and are left out of the JSON body. */
  function RecordRequestFor(session: CheckoutSession): (r: RecordRequest)
    ensures r.httpMethod == Post && r.stripeData == session.payload
    ensures r.email == Lookup(MetadataOf(session), "email")
    ensures r.pdfUrl == Lookup(MetadataOf(session), "pdfUrl")
    ensures r.projectName == Lookup(MetadataOf(session), "projectName")
  {
    var metadata := MetadataOf(session);
    RecordRequest(Post, Lookup(metadata, "email"), Lookup(metadata, "pdfUrl"), Lookup(metadata, "projectName"), session.payload)
  }

  /** The body with the email taken from the session's customer email,
      where the checkout handler puts it; the rest as written. */
  function RecordRequestCorrected(session: CheckoutSession): (r: RecordRequest)
    ensures r.httpMethod == Post && r.stripeData == session.payload
    ensures r.email == session.customerEmail
    ensures r.pdfUrl == Lookup(MetadataOf(session), "pdfUrl")
    ensures r.projectName == Lookup(MetadataOf(session), "projectName")
  {
    var metadata := MetadataOf(session);
    RecordRequest(Post, session.customerEmail, Lookup(metadata, "pdfUrl"), Lookup(metadata, "projectName"), session.payload)
  }

  /** The response to the recording endpoint's reply. */
  function ReplyResponse(metadata: map<string, string>, reply: FetchReply<JsValue>): (r: Response<LookupBody>)
    ensures r.status == 200 <==> reply.Replied? && IsOk(reply.status) && !reply.body.Undefined? && !reply.body.Null?
    ensures r.status != 200 ==> r.status == 500
    ensures reply.Replied? && !IsOk(reply.status) ==> r.body == LookupError("Failed to save purchase info")
    ensures r.status == 200 ==> r.body == Found(metadata, Lookup(metadata, "pdfUrl"), Get(reply.body, "code"))
  {
    match reply
    case Threw(_) => Response(500, LookupError("Internal Server Error"))
    case Replied(status, data) =>
      if !IsOk(status) then Response(500, LookupError("Failed to save purchase info"))
      else if data.Undefined? || data.Null? then Response(500, LookupError("Internal Server Error"))
      else Response(200, Found(metadata, Lookup(metadata, "pdfUrl"), Get(data, "code")))
  }

  /** The handler's steps, with the recording body drawn from the session
      by `bodyFor`. `baseUrl` is `NEXT_PUBLIC_BASE_URL`; `retrieval` is the
      provider's answer and `reply` the recording endpoint's, each used only
      if that call is made. */
  function LookupWith(
    sessionId: Option<QueryParam>,
    baseUrl: string,
    retrieval: Retrieval,
    reply: FetchReply<JsValue>,
    bodyFor: CheckoutSession -> RecordRequest): (r: LookupOutcome)
    ensures !ValidSessionId(sessionId) ==>
              r == LookupOutcome(Response(400, LookupError("Missing or invalid session_id")), [], [], false)
    ensures ValidSessionId(sessionId) ==> r.retrievals == [sessionId.value.value]
    ensures ValidSessionId(sessionId) && retrieval.RetrieveFailed? ==>
              r.response == Response(500, LookupError("Internal Server Error")) && r.recordCalls == []
    ensures |r.recordCalls| <= 1
    ensures |r.recordCalls| == 1 <==> ValidSessionId(sessionId) && retrieval.Retrieved?
    ensures |r.recordCalls| == 1 ==>
              var session := retrieval.session;
              && r.recordCalls[0] == RecordCall(baseUrl + "/api/record-purchase", bodyFor(session))
              && r.response == ReplyResponse(MetadataOf(session), reply)
              && (r.warnedNoPdf <==> !Filled(Lookup(MetadataOf(session), "pdfUrl")))
  {
    if !ValidSessionId(sessionId) then
      LookupOutcome(Response(400, LookupError("Missing or invalid session_id")), [], [], false)
    else
      var id := sessionId.value.value;
      match retrieval
      case RetrieveFailed(_) => LookupOutcome(Response(500, LookupError("Internal Server Error")), [id], [], false)
      case Retrieved(session) =>
        var metadata := MetadataOf(session);
        var warned := !Filled(Lookup(metadata, "pdfUrl"));
        var call := RecordCall(baseUrl + "/api/record-purchase", bodyFor(session));
        LookupOutcome(ReplyResponse(metadata, reply), [id], [call], warned)
  }

  /** The handler as written. Every retrieved session leads to exactly one
      recording request, whatever was recorded before, and a missing
      `pdfUrl` only logs a warning. */
  function HandleLookup(sessionId: Option<QueryParam>, baseUrl: string, retrieval: Retrieval, reply: FetchReply<JsValue>): (r: LookupOutcome)
    ensures |r.recordCalls| == 1 <==> ValidSessionId(sessionId) && retrieval.Retrieved?
    ensures |r.recordCalls| == 1 ==> r.recordCalls[0].request == RecordRequestFor(retrieval.session)
    ensures r.response.status == 200 ==>
              && |r.recordCalls| == 1 && reply.Replied? && IsOk(reply.status)
              && r.response.body == Found(MetadataOf(retrieval.session), Lookup(MetadataOf(retrieval.session), "pdfUrl"),
                                          Get(reply.body, "code"))
  {
    LookupWith(sessionId, baseUrl, retrieval, reply, RecordRequestFor)
  }

  /** The handler with the recording email taken from the session's
      customer email. */
  function HandleLookupCorrected(sessionId: Option<QueryParam>, baseUrl: string, retrieval: Retrieval, reply: FetchReply<JsValue>): (r: LookupOutcome)
    ensures |r.recordCalls| == 1 <==> ValidSessionId(sessionId) && retrieval.Retrieved?
    ensures |r.recordCalls| == 1 ==> r.recordCalls[0].request == RecordRequestCorrected(retrieval.session)
    ensures r.response.status == 200 ==> |r.recordCalls| == 1 && reply.Replied? && IsOk(reply.status)
  {
    LookupWith(sessionId, baseUrl, retrieval, reply, RecordRequestCorrected)
  }
}

=== FILE: webhook.dfy ===
/** `POST /api/stripe-webhook`: checks the payment provider's signature on
    the raw body, and on a completed checkout forwards the session to the
    print-order endpoint. Once the signature holds it always acknowledges. */
module Webhook {
  import opened Common
  import opened JsValues
  import opened JsonText

  /** A provider event: its `type` and its `data.object`. */
  datatype Event = Event(eventType: string, dataObject: JsValue)

  /** What the library's signature check gives: the parsed event, or the
      error it throws. */
  datatype Verification = Verified(event: Event) | Rejected(message: string)

  /** The request as the handler reads it: the method, the raw body text and
      the `stripe-signature` header. */
  datatype WebhookRequest = WebhookRequest(httpMethod: string, rawBody: string, signature: Option<string>)

  /** The deployment settings the handler reads. */
  datatype WebhookEnv = WebhookEnv(siteUrl: string, webhookSecret: string)

  /** One outbound `fetch`: its URL, method and JSON body text. */
  datatype ForwardCall = ForwardCall(url: string, httpMethod: string, body: string)

  datatype WebhookBody = MethodNotAllowed | WebhookError(text: string) | Received

  /** What the handler writes to the server log about the forwarded call:
      the only place its reply shows. */
  datatype ForwardLog = NotForwarded | ForwardFailed(text: string) | ForwardSucceeded | ForwardThrew(message: string)

  datatype WebhookOutcome = WebhookOutcome(response: Response<WebhookBody>, calls: seq<ForwardCall>, log: ForwardLog)

  const CompletedEvent: string := "checkout.session.completed"

  /** The body forwarded for a completed checkout: an object whose only
      member is `session`. */
  function ForwardedBody(session: JsValue): (r: JsValue)
    ensures r.Obj? && |r.members| == 1 && r.members[0].key == "session"
    ensures Get(r, "session") == session
  {
    Obj([Member("session", session)])
  }

  /** The handler. `verify` is the library's signature check over (raw
      body, signature, secret); `reply` is what the forwarded `fetch` gives
      if it is made. */
  function HandleWebhook(
    req: WebhookRequest,
    env: WebhookEnv,
    verify: (string, Option<string>, string) -> Verification,
    reply: FetchReply<string>): (r: WebhookOutcome)
    ensures req.httpMethod != Post ==> r == WebhookOutcome(Response(405, MethodNotAllowed), [], NotForwarded)
    ensures req.httpMethod == Post && verify(req.rawBody, req.signature, env.webhookSecret).Rejected? ==>
              r.response.status == 400 && r.calls == []
              && r.response.body == WebhookError("Webhook Error: " + verify(req.rawBody, req.signature, env.webhookSecret).message)
    ensures req.httpMethod == Post && verify(req.rawBody, req.signature, env.webhookSecret).Verified? ==>
              r.response == Response(200, Received)
    ensures |r.calls| <= 1
    ensures |r.calls| == 1 <==>
              req.httpMethod == Post
              && var v := verify(req.rawBody, req.signature, env.webhookSecret);
              v.Verified? && v.event.eventType == CompletedEvent
    ensures |r.calls| == 1 ==>
              var session := verify(req.rawBody, req.signature, env.webhookSecret).event.dataObject;
              r.calls[0] == ForwardCall(env.siteUrl + "/api/submit-gelato-order", Post, Stringify(ForwardedBody(session)))
    ensures r.log.NotForwarded? <==> r.calls == []
    ensures r.log.ForwardSucceeded? <==> r.calls != [] && reply.Replied? && IsOk(reply.status)
  {
    if req.httpMethod != Post then WebhookOutcome(Response(405, MethodNotAllowed), [], NotForwarded)
    else
      match verify(req.rawBody, req.signature, env.webhookSecret)
      case Rejected(message) => WebhookOutcome(Response(400, WebhookError("Webhook Error: " + message)), [], NotForwarded)
      case Verified(event) =>
        if event.eventType == CompletedEvent then
          var call := ForwardCall(env.siteUrl + "/api/submit-gelato-order", Post, Stringify(ForwardedBody(event.dataObject)));
          var log := match reply
            case Threw(message) => ForwardThrew(message)
            case Replied(status, text) => if IsOk(status) then ForwardSucceeded else ForwardFailed(text);
          WebhookOutcome(Response(200, Received), [call], log)
        else WebhookOutcome(Response(200, Received), [], NotForwarded)
  }

  /** The forwarded call's outcome reaches only the log: two runs that
      differ only in it give the same response and make the same calls. */
  lemma AcknowledgementIgnoresReply(
    req: WebhookRequest,
    env: WebhookEnv,
    verify: (string, Option<string>, string) -> Verification,
    reply1: FetchReply<string>,
    reply2: FetchReply<string>)
    ensures HandleWebhook(req, env, verify, reply1).response == HandleWebhook(req, env, verify, reply2).response
    ensures HandleWebhook(req, env, verify, reply1).calls == HandleWebhook(req, env, verify, reply2).calls
  {
  }

  /** Only a signature that verifies can lead to a forwarded call, and the
      only event that does is a completed checkout. */
  lemma ForwardNeedsVerifiedCompletion(
    req: WebhookRequest,
    env: WebhookEnv,
    verify: (string, Option<string>, string) -> Verification,
    reply: FetchReply<string>)
    requires HandleWebhook(req, env, verify, reply).calls != []
    ensures verify(req.rawBody, req.signature, env.webhookSecret) == Verified(Event(CompletedEvent, verify(req.rawBody, req.signature, env.webhookSecret).event.dataObject))
  {
  }
}
